=== FILE: README.md ===
# rclone S3 mounter — a Dafny model of its core

The application is an Electron front end for `rclone mount`. It has three parts that make decisions, and this project models all three as pure Dafny functions:

- **The mount supervisor in the main process** (`supervisor.dfy`, `supervisor_runs.dfy`). This covers the `mount`, `unmount` and window-`closed` handlers, and every callback they register.
  - The callbacks are: the config helper's `close` with its mount-point check, the mount child's `data`, `error` and `close` listeners, the 2500 ms confirmation timer, and the 3000 ms grace timer of an unmount.
  - Node runs these callbacks one at a time. So the supervisor is a transition function `Step(state, event)` over an immutable `State`.
  - `State` holds the global `rcloneProcess` (`held`) and the latch `unmountInitiatedByUser` (`userUnmount`). It also holds every child and timer whose callbacks can still run. Each of these gets a fresh identity from one counter.
  - Outputs are:
    - the status messages, with their exact text and severity;
    - `mount-successful` and `mount-terminated`;
    - the children spawned, the signals sent, and the timers armed and cleared;
    - the value `unmount` resolves with.
  - `Run` folds `Step` over a sequence of events.
- **The `list-buckets` and `check-rclone` handlers** (`bucket_list.dfy`). These cover:
  - the environment and arguments of the listing child;
  - the parsing of its output into bucket names;
  - its failure results;
  - the verdict of the `rclone --version` probe.
- **The renderer's decisions** (`renderer.dfy`). These cover:
  - the status pill and the enabled state of every control;
  - the validation in the mount, refresh and save handlers;
  - the loading and deleting of profiles;
  - the encryption gate;
  - the `isMounted` flag that the main process's events drive.

`bridge.dfy` connects the supervisor's outputs to the renderer's view. `js_text.dfy` models the JavaScript string operations the code relies on: `trim`, `split`, and the decimal rendering of numbers. It also defines `Join`, which the code never calls, as the inverse of `split`, so that `JoinSplit` can state that splitting at newlines loses nothing. `common.dfy` holds the shared vocabulary.

The model follows the code as written. In particular:

- The mount guard looks only at the held child.
- The latch is cleared only by an accepted mount request.
- The confirmation timer checks only that some child is held and unsignalled, not which one.
- A failure report shows all of stdout before all of stderr.
- A second `unmount` signals again and registers another timer and another close listener.
- The mount and refresh clicks go through the encryption gate as written, which rejects whenever the password field is empty (see "## Findings"). The gate as designed and the clicks behind it are kept beside them as `Renderer.Gate`, `Renderer.DesignedClickMount` and `Renderer.DesignedClickRefresh`.
- A listing child that cannot be started fires `error` and then `close`, so it is reported twice.

Some consequences of the code that a reader might not expect:

- The latch is never reset when a child closes (main.js:229-238). `SupervisorRuns.LatchSticksUntilMount` proves that it stays set until the next accepted mount request.
- The config helper gets the endpoint and both keys as command arguments (main.js:191); see `Supervisor.MountGuard`. Only the config password goes through the environment (main.js:192).
- The timers are not tagged with the child they were started for (main.js:240-245). `SupervisorRuns.StaleConfirmAnnouncesLaterMount` shows a stale confirmation announcing a later mount.
- The failure text is `Mount process failed with exit code <code>. Output:` followed by the diagnosis (main.js:234).
- Each child has two output buffers, one per stream, with no bound on their size (main.js:216-221). The model keeps them unbounded too.

The `Supervisor` lemmas named after one branch of a handler (`MountGuard`, `ConfigCloseStarts`, `ProcErrorReleases`, `OutputAppends`, `UnmountWhenIdle`, `UnmountWhenHeld`, `GraceEscalates`) state that branch in closed form, as the reference the proofs about runs build on. The properties of the supervisor as a whole are proved over runs in `SupervisorRuns`: the invariant, the latch, the captured output, and the scenarios.

## Model

| member | source | states |
|---|---|---|
| JsText.TrimIsTrimOf | main.js:109 | `trim` removes a whitespace prefix and a whitespace suffix, and what remains neither starts nor ends with whitespace |
| JsText.TrimEmptyIffBlank | main.js:233 | a string trims to empty exactly when every character of it is whitespace |
| JsText.JoinSplit | main.js:109 | joining the pieces of `split('\n')` gives back the string: the split loses nothing |
| JsText.SplitJoin | main.js:109 | splitting a join of separator-free pieces gives back the pieces |
| JsText.NatToStringRoundTrip | main.js:105 | the decimal text of a number that a template literal prints reads back as that number |
| BucketList.ListEnv | main.js:79-96 | the listing child, which runs `rclone lsf tempbucketlist: --dirs-only`, gets the parent's environment with seven variables laid over it: the throwaway remote's type `s3`, provider `Ceph` and `ENV_AUTH` `false`, its endpoint and both keys as given, and the config password; every other variable keeps the parent's value |
| BucketList.ListEnvOverrides | main.js:82-91 | whatever definition of the throwaway remote the parent's environment already holds is overridden: laying the variables over an environment that has them gives the same result as laying them over one that does not |
| BucketList.ParseBuckets | main.js:109 | the bucket list has no more entries than the trimmed output has lines, and no entry is empty or contains a newline |
| BucketList.ParseBucketsSelectsLines | main.js:109 | the bucket list is exactly the non-empty slash-stripped lines, in their original order, as picked out by an independent list of positions |
| BucketList.DropEmptyIsKeptIndices | main.js:109 | `filter(Boolean)` keeps exactly the entries at the ascending positions of the non-empty strings |
| BucketList.ParseRenderedListing | main.js:109 | parsing what `rclone lsf --dirs-only` prints for a list of plain directory names gives back those names: parsing inverts the listing format |
| BucketList.OnListClose | main.js:103-111 | the close listener succeeds exactly on code 0, and reports once exactly when it fails |
| BucketList.OnListError | main.js:114-117 | the error listener fails with the spawn error's message and reports once |
| BucketList.ListBuckets | main.js:103-117 | success exactly when the child closed with code 0, and the reply is then the parsed list with no report; a failing close replies with the stderr text, or exactly `rclone exited with code N` when stderr is empty, and reports exactly `Failed to list buckets: ` followed by that error; whenever the `error` listener fired, the reply is the start failure's message and the first report is exactly `Failed to start rclone for listing buckets: ` followed by it; two reports exactly when a child that could not start then closes with a failing code, the second ending in that code; every report is an error |
| BucketList.StartFailureThenClose | main.js:103-117 | a child that could not start and then closes gets the start failure as its reply, since a promise keeps its first value, and both listeners' reports in order |
| BucketList.RcloneAvailable | main.js:121-127 | rclone counts as available exactly when the probe closed with code 0; a spawn error or any other code means unavailable |
| Supervisor.Diagnosis | main.js:233-234 | the failure output is the trimmed concatenation of stdout followed by stderr, or `No output captured.` exactly when that concatenation is all whitespace |
| Supervisor.MountGuard | main.js:181-194 | while a child is held, a mount request changes nothing and emits only the "already active" error; otherwise it clears the latch, registers one config helper under a fresh id with the credentials as arguments and the password for the environment, and changes nothing else |
| Supervisor.ConfigCloseFails | main.js:195-199 | a failed helper, or a mount point that cannot be created, retires the helper only; every output is a status, exactly the last is an error, and nothing is spawned, held or armed |
| Supervisor.ConfigCloseStarts | main.js:200-218 | a successful helper with the mount point in place holds a new child under a fresh id, arms a confirmation timer remembering `name:bucket`, and changes nothing else |
| Supervisor.ConfigCloseAnnounces | main.js:200-245 | the statuses are "created", then "created mount point" exactly when the directory was made, then "attempting"; the mount child is spawned with the mount arguments and the 2500 ms timer is armed |
| Supervisor.ProcErrorReleases | main.js:223-227 | a child's `error` event reports the start failure, sends `mount-terminated` and drops the held reference, while the child itself stays registered |
| Supervisor.OutputAppends | main.js:220-221 | a chunk is appended to its child's buffer for that stream, and nothing else changes or is sent |
| Supervisor.CloseReleases | main.js:229-238 | a close forgets the child, drops the held reference whichever child was held, retires exactly the grace timers of the unmounts waiting on it, and leaves the latch as it was |
| Supervisor.CloseReports | main.js:229-238 | a close sends exactly one status, first: "terminated by user" when the latch is set, else the failure report with code and diagnosis; then exactly one `mount-terminated`; never a signal, success notice or spawn |
| Supervisor.CloseResolvesWaiters | main.js:173-177 | a close resolves every pending `unmount` on that child with success, once each, and clears each one's grace timer |
| Supervisor.ConfirmAnnounces | main.js:240-245 | the confirmation timer announces success exactly when some child is held and not yet signalled, whichever mount armed the timer; it then sends the "mounted" status with its own remote and `mount-successful`, and otherwise nothing |
| Supervisor.UnmountWhenIdle | main.js:158-162 | with nothing held, unmount emits the warning and resolves `Not mounted`, sending no signal and changing nothing |
| Supervisor.UnmountWhenHeld | main.js:164-178 | with a child held, unmount sets the latch, sends SIGINT at once, arms a fresh 3000 ms grace timer and registers as a waiter on the child |
| Supervisor.GraceEscalates | main.js:168-172 | a pending grace timer sends SIGKILL exactly when a child is held at that moment, and otherwise nothing; a cleared timer does nothing |
| Supervisor.WindowCloseKills | main.js:42-49 | closing the window with a child held sets the latch, sends the default signal and forgets the child; with nothing held it does nothing |
| SupervisorRuns.StepPreservesInv | main.js:181-245 | every callback keeps the identities fresh and the held child registered |
| SupervisorRuns.RunPreservesInv | main.js:158-245 | the invariant holds after any sequence of callbacks |
| SupervisorRuns.LatchMoves | main.js:45 | the latch is set exactly by an unmount or window close that finds a child held, and cleared exactly by a mount request with nothing held |
| SupervisorRuns.LatchSticksUntilMount | main.js:229-238 | once set, the latch stays set through any callbacks that include no mount request, closes included |
| SupervisorRuns.BuffersAccumulate | main.js:216-221 | a live child's buffers hold exactly what arrived on each stream, each in its own arrival order, however the streams interleaved |
| SupervisorRuns.CloseReportsCapturedStreams | main.js:229-235 | a child that closes without the latch set reports its code and the diagnosis of everything its stdout delivered followed by everything its stderr delivered |
| SupervisorRuns.UnmountClosesInGrace | main.js:164-178 | unmount, then a close within the grace period: SIGINT is the only signal, the user-terminated report follows the unmounting notice, the unmount resolves with success, the grace timer is cleared and nothing stays held |
| SupervisorRuns.UnmountEscalates | main.js:164-178 | unmount, then the grace timer, then the close: SIGINT, then SIGKILL to the same child, then the user-terminated report; the unmount still resolves with success |
| SupervisorRuns.MountDuringConfigAccepted | main.js:181-194 | a second mount request while the first config helper runs is accepted, because the guard looks only at the held child: two helpers run and nothing is held |
| SupervisorRuns.OrphanCloseForgetsLiveMount | main.js:229-238 | with two helpers succeeding, the first child's close drops the handle of the second, still live, child, so a later unmount answers `Not mounted` |
| SupervisorRuns.FailedMountLeavesTimer | main.js:229-245 | a mount child that closes before its confirmation leaves the timer pending |
| SupervisorRuns.StaleConfirmAnnouncesLaterMount | main.js:240-245 | a stale confirmation timer announces success for a later mount, naming the earlier remote |
| Renderer.StatusPill | renderer.js:39-52 | the pill reads "Monterad" exactly when mounted, and "rclone saknas" exactly when not mounted and rclone is missing |
| Renderer.ButtonStates | renderer.js:54-76 | mount and unmount are never both enabled; everything except unmount is disabled exactly when mounted; unmount is enabled only when mounted; mount is enabled exactly when not mounted and rclone is available; refresh is enabled exactly when not mounted and the endpoint and both keys are non-empty untrimmed; delete is enabled exactly when not mounted and a profile is selected |
| Renderer.PillMatchesButtons | renderer.js:39-76 | unmount is offered exactly when the pill reads "Monterad", and mount exactly when it reads "Inte monterad" |
| Renderer.MountProfile | renderer.js:148-161 | a mount is requested exactly when name, endpoint, access key and mount point are not all whitespace, the secret key is non-empty as typed, and a bucket is chosen; the password is never required; the sent fields are the trims of the typed ones |
| Renderer.HandleMount | renderer.js:159-162 | a valid form sends exactly one `mount` with the built profile and changes nothing; an invalid one logs the error and sends nothing |
| Renderer.ListCredentials | renderer.js:166-175 | a listing is requested exactly when endpoint and access key are not all whitespace and the secret key is non-empty; endpoint and key are trimmed; the secret and password are passed as typed |
| Renderer.AcceptedListingWasOffered | renderer.js:57-61 | a listing the handler accepts is one the refresh button offered, when nothing is mounted |
| Renderer.OfferedListingCanBeRefused | renderer.js:57-61 | an endpoint of one space enables the refresh button, but the click is refused with the warning, because the button tests untrimmed fields and the handler trimmed ones |
| Renderer.StartRefresh | renderer.js:173-180 | a refused listing logs the warning and sends nothing; an accepted one logs the fetching notice and sends the credentials |
| Renderer.ListedSelect | renderer.js:182-203 | the select always shows one of its options; a non-empty listing lists exactly the buckets, keeps the previous choice when it is among them and shows the first bucket otherwise; an empty listing or a failure shows only its placeholder |
| Renderer.ListingKeepsChoice | renderer.js:197-199 | a non-empty choice survives a listing exactly when the listing succeeded and contains it |
| Renderer.FinishRefresh | renderer.js:182-204 | only the bucket select and the log change; a non-empty listing logs its count, an empty one logs nothing, and a failure logs the error |
| Renderer.SaveProfile | renderer.js:128-146 | a blank name only logs the error; otherwise exactly the entry under the trimmed name is written and every other profile is kept, the whole table is sent to be persisted, the selection moves to the name, and the form stays as it was |
| Renderer.LoadProfile | renderer.js:98-124 | selecting a saved profile fills the form from it and shows its bucket; selecting none empties the form; the password field is cleared in both cases |
| Renderer.SaveThenLoad | renderer.js:128-139 | loading a just-saved profile gives back the form as saved, with the trimmed fields trimmed and the password cleared |
| Renderer.LoadThenSave | renderer.js:98-139 | loading a well-formed profile and saving it straight back changes no saved profile |
| Renderer.DeleteProfile | renderer.js:237-247 | with a profile selected and the dialog accepted, exactly that profile is removed, the table is sent to be persisted, the selection is cleared, the deletion is logged, and the form and bucket select are emptied (unless a profile is stored under the empty name); nothing else on the page changes; otherwise nothing happens |
| Renderer.DeletedProfileIsGone | renderer.js:237-247 | after a delete, loading the deleted name finds nothing and empties the form |
| Renderer.GateAsWritten | renderer.js:207-219 | with a password typed the action runs; without one the gate rejects exactly when the API does not expose `isConfigEncrypted` |
| Renderer.GateAsWrittenRejects | renderer.js:213 | with the preload script's API, an empty password field makes the gate reject whatever the configuration holds |
| Renderer.Gate | renderer.js:207-219 | the designed gate never rejects; it runs the action exactly when a password is typed or the configuration is not encrypted, and shows the modal otherwise |
| Renderer.GateAgreesWhenExposed | renderer.js:207-219 | once `isConfigEncrypted` is exposed, the code as written behaves as the designed gate |
| Renderer.Gated | renderer.js:207-219 | a rejected gate leaves the page as it was and sends nothing |
| Renderer.ClickMount | renderer.js:207-224 | with the preload script's API, a mount click runs the mount handler when a password is typed and otherwise does nothing at all |
| Renderer.ClickRefresh | renderer.js:207-223 | with the preload script's API, a refresh click runs the refresh handler when a password is typed and otherwise does nothing at all |
| Renderer.DesignedClickMount | renderer.js:207-224 | behind the designed gate, a mount click runs the mount handler or opens the modal |
| Renderer.DesignedClickRefresh | renderer.js:207-223 | behind the designed gate, a refresh click runs the refresh handler or opens the modal |
| Renderer.MountRequestNeedsFields | renderer.js:148-162 | as written, a mount reaches the main process only with a config password typed and every required field filled, as the one `mount` call with the built profile under the trimmed name |
| Renderer.MountRequestCarries | renderer.js:148-162 | a mount request as written carries the trimmed, non-blank profile name and the config password exactly as typed, which is never empty |
| Renderer.DesignedMountRequestNeedsFields | renderer.js:148-162 | behind the designed gate, a mount needs every required field filled, and a password only when the configuration is encrypted |
| Renderer.ClicksAgreeWithPassword | renderer.js:207-224 | with a password typed the clicks as written and as designed agree; with none and an unencrypted configuration the design mounts and the code does nothing |
| Renderer.ClickUnmount | renderer.js:249 | an unmount click sends one `unmount` request and changes nothing on the page |
| Renderer.Receive | renderer.js:252-254 | `isMounted` changes only on `mount-successful`, which sets it, and `mount-terminated`, which clears it |
| Renderer.ReceiveAllFollowsLast | renderer.js:253-254 | after any batch of main-process events, `isMounted` is what the last lifecycle event said, or is unchanged if there was none |
| Renderer.ReceiveAllLogs | renderer.js:252 | after any batch, the log has grown by exactly the batch's status messages, in order |
| Renderer.TerminatedBatch | renderer.js:254 | a batch with a `mount-terminated` and no `mount-successful` ends with the renderer not mounted |
| Renderer.AnnouncedBatch | renderer.js:253 | a batch with a `mount-successful` and no `mount-terminated` ends with the renderer mounted |
| Renderer.Initialize | renderer.js:257-270 | at start nothing is mounted, the loaded profiles are kept with no selection, the mount button is offered exactly when the probe closed with code 0, and the log says whether rclone was found |
| Bridge.CloseShowsUnmounted | main.js:229-238 | whenever a mount child closes, the renderer that receives the outputs shows "not mounted", offers no unmount and unlocks the form |
| Bridge.ConfirmShowsMounted | main.js:240-245 | a confirmation that fires with an unsignalled child held makes the renderer show "mounted" and lock everything except unmount |
| Bridge.MountClickStartsHelper | main.js:186-194 | a mount click that passes the gate and the validation makes an idle supervisor start the config helper for the trimmed, non-blank profile name, with the password exactly as typed, which the gate as written requires to be non-empty |
| Bridge.IdleMountSpawnsHelper | main.js:186-194 | an idle supervisor answers a mount request by spawning the config helper named after the profile, with the profile's password for the environment |

## Left out

- The Electron window and app lifecycle, menus, and the directory dialog (`browse-mount-point`) are left out. So is the null `mainWindow` after the window closes: `sendStatus` drops messages then, and the unguarded `webContents.send` would throw.
- Profile persistence (`load-profiles` / `save-profiles`) is left out: it is file and JSON I/O. The renderer's requests to persist are kept as outputs.
- Real processes, signals and timers are left out. Spawns, signals and timers are outputs, and their callbacks are events the caller supplies in any order. Wall-clock time is not modelled, so the order of events stands in for the 2500 ms and 3000 ms delays.
- The mount-point check is left out. `existsSync` / `mkdirSync` (main.js:202-210) is a parameter of the helper's close event: the directory exists, was created, or failed with a message.
- The path of the log file is a parameter of the state (`path.join(app.getPath('temp'), …)`).
- The DOM construction, the log's markup and timestamps, and the profile select's option list (`populateProfileSelect`) are left out. Only the select's value is kept.
- The transient disabling of the refresh button while a listing is pending (renderer.js:178) is left out. The next `updateButtonStates` overrides it, and no state variable records it.
- The password modal's close button and the browse button's effect on the mount-point field are left out: they carry no decision.
- preload.js is not modelled beyond the set of method names it exposes.
- The config helper has no `error` listener (main.js:194). A helper that cannot be started throws an uncaught exception in the main process and never delivers its `close`; the model has no event for it, so such a helper simply never closes.
- Renderer.SaveProfile: the profile table, a plain JavaScript object, is modelled as a map, so the name `__proto__` is not modelled. For that name the assignment at renderer.js:132 goes to the inherited prototype setter and writes no entry, the table persisted at renderer.js:141 lacks it, the profile list at renderer.js:89 shows the record's inherited fields, and the selection set at renderer.js:143 ends empty; the model instead stores and selects an ordinary entry.
- Renderer.Gate: the model of the gate as designed, and the clicks behind it, take the configuration's encryption as a parameter, because no part of the application computes it.

## Findings

| source | as written | input that shows it | evidently intended | confidence | as-written member | corrected member |
|---|---|---|---|---|---|---|
| renderer.js:213 | with an empty password field the gate calls `window.electronAPI.isConfigEncrypted()`, but preload.js:7-21 exposes no such method and main.js registers no handler for it, so the call throws and the async handler rejects | click mount or refresh with the config password field empty | ask the main process whether the rclone configuration is encrypted, then run the action or show the password modal | not executed; high, since preload.js and main.js are complete and neither defines it | Renderer.GateAsWrittenRejects | Renderer.Gate |

=== FILE: bridge.dfy ===
/** How the renderer's view follows the supervisor: what the renderer shows
    once it has received the outputs of one supervisor callback, and what a
    mount click hands to the supervisor. */
module Bridge {
  import opened Common
  import opened JsText
  import opened Supervisor
  import Renderer

  /** Whenever a mount child closes, the renderer that receives the close's
      outputs shows "not mounted", offers no unmount, and unlocks the form,
      whatever it showed before (main.js:229-238, renderer.js:254). */
  lemma CloseShowsUnmounted(s: State, p: nat, code: ExitCode, page: Renderer.Page)
    requires p in s.procs
    ensures var q := Renderer.ReceiveAll(page, OnProcClose(s, p, code).outputs);
            && !q.isMounted
            && Renderer.StatusPill(q) != Renderer.PillMounted
            && Renderer.ButtonStates(q).unmount
            && !Renderer.ButtonStates(q).saveProfile
  {
    var outs := OnProcClose(s, p, code).outputs;
    CloseReports(s, p, code);
    assert MountTerminated in outs by {
      assert multiset(outs)[MountTerminated] > 0;
    }
    Renderer.TerminatedBatch(outs);
    Renderer.ReceiveAllFollowsLast(page, outs);
  }

  /** A confirmation timer that fires while an unsignalled child is held
      makes the renderer show "mounted" and lock everything but unmount
      (main.js:240-245, renderer.js:253). */
  lemma ConfirmShowsMounted(s: State, timer: nat, page: Renderer.Page)
    requires timer in s.confirms && s.held.Some? && !Killed(s, s.held.value)
    ensures var q := Renderer.ReceiveAll(page, OnConfirm(s, timer).outputs);
            && q.isMounted
            && Renderer.StatusPill(q) == Renderer.PillMounted
            && Renderer.Locked(Renderer.ButtonStates(q))
  {
    var outs := OnConfirm(s, timer).outputs;
    ConfirmAnnounces(s, timer);
    Renderer.AnnouncedBatch(outs);
    Renderer.ReceiveAllFollowsLast(page, outs);
  }

  /** A mount click that gets through the gate and the validation makes an
      idle supervisor start the config helper for the trimmed, non-blank
      profile name, with the password exactly as typed, which the gate as
      written insists is non-empty (renderer.js:148-162, renderer.js:207-224,
      main.js:186-192). */
  lemma MountClickStartsHelper(page: Renderer.Page, encrypted: bool, s: State)
    requires Inv(s) && s.held.None?
    ensures var r := Renderer.ClickMount(page, encrypted);
            r.requests != [] ==>
              && r.requests[0].MountCall?
              && page.form.configPassword != ""
              && var prof := r.requests[0].profile;
                 && OnMount(s, prof).outputs[1] == SpawnHelper(s.next, ConfigArgs(prof), page.form.configPassword)
                 && ConfigArgs(prof)[2] == Trim(page.form.profileName) && !AllWhitespace(page.form.profileName)
  {
    var r := Renderer.ClickMount(page, encrypted);
    Renderer.MountRequestCarries(page, encrypted);
    if r.requests != [] {
      IdleMountSpawnsHelper(s, r.requests[0].profile);
    }
  }

  /** An idle supervisor answers a mount request by spawning the config
      helper, named after the profile, with the profile's password. */
  lemma IdleMountSpawnsHelper(s: State, prof: Profile)
    requires Inv(s) && s.held.None?
    ensures OnMount(s, prof).outputs[1] == SpawnHelper(s.next, ConfigArgs(prof), prof.configPassword)
    ensures ConfigArgs(prof)[2] == prof.profileName
  {
    MountGuard(s, prof);
  }
}

=== FILE: bucket_list.dfy ===
/** The main process's `list-buckets` and `check-rclone` handlers: how the
    listing child is invoked, how its output becomes a bucket list, and how
    its failures are reported. */
module BucketList {
  import opened Common
  import opened JsText

  /** What the renderer sends for a listing (renderer.js:166-171). */
  datatype Credentials = Credentials(endpoint: string, accessKey: string, secretKey: string, configPassword: string)

  /** Name of the throwaway remote the listing defines and lists. */
  const TempRemote := "tempbucketlist"

  /** Prefix of the environment variables that define the throwaway remote. */
  const TempPrefix := "RCLONE_CONFIG_TEMPBUCKETLIST_"

  /** Arguments of the listing child: directories of the throwaway remote. */
  function ListArgs(): seq<string> {
    ["lsf", TempRemote + ":", "--dirs-only"]
  }

  /** The variables the listing handler writes over the parent's environment. */
  const ListVars: set<string> := {"RCLONE_CONFIG_PASS", TempPrefix + "TYPE", TempPrefix + "PROVIDER",
    TempPrefix + "ENV_AUTH", TempPrefix + "ENDPOINT", TempPrefix + "ACCESS_KEY_ID", TempPrefix + "SECRET_ACCESS_KEY"}

  /** Environment of the listing child: the parent's environment with the
      throwaway remote's definition and the config password laid over it. */
  function ListEnv(base: map<string, string>, c: Credentials): (env: map<string, string>)
    ensures env.Keys == base.Keys + ListVars
    ensures env[TempPrefix + "TYPE"] == "s3" && env[TempPrefix + "PROVIDER"] == "Ceph"
    ensures env[TempPrefix + "ENV_AUTH"] == "false"
    ensures env[TempPrefix + "SECRET_ACCESS_KEY"] == c.secretKey && env[TempPrefix + "ACCESS_KEY_ID"] == c.accessKey
    ensures env[TempPrefix + "ENDPOINT"] == c.endpoint && env["RCLONE_CONFIG_PASS"] == c.configPassword
    ensures forall k :: k in base && k !in ListVars ==> env[k] == base[k]
  {
    var n := |TempPrefix|;
    assert (TempPrefix + "TYPE")[n] == 'T' && (TempPrefix + "PROVIDER")[n] == 'P';
    assert (TempPrefix + "ENV_AUTH")[n + 2] == 'V' && (TempPrefix + "ENDPOINT")[n + 2] == 'D';
    assert (TempPrefix + "ACCESS_KEY_ID")[n] == 'A' && (TempPrefix + "SECRET_ACCESS_KEY")[n] == 'S';
    base["RCLONE_CONFIG_PASS" := c.configPassword]
        [TempPrefix + "TYPE" := "s3"]
        [TempPrefix + "PROVIDER" := "Ceph"]
        [TempPrefix + "ENV_AUTH" := "false"]
        [TempPrefix + "ENDPOINT" := c.endpoint]
        [TempPrefix + "ACCESS_KEY_ID" := c.accessKey]
        [TempPrefix + "SECRET_ACCESS_KEY" := c.secretKey]
  }

  /** One trailing slash removed from a line, if it has one: at most one `/`, and only at the very end. */
  function StripSlash(line: string): (r: string)
    ensures r == line || r + "/" == line
    ensures r != line <==> |line| > 0 && line[|line| - 1] == '/'
  {
    if |line| > 0 && line[|line| - 1] == '/' then line[..|line| - 1] else line
  }

  function StripAll(lines: seq<string>): (r: seq<string>)
    ensures |r| == |lines|
    ensures forall k :: 0 <= k < |r| ==> r[k] == StripSlash(lines[k])
  {
    seq(|lines|, k requires 0 <= k < |lines| => StripSlash(lines[k]))
  }

  /** The non-empty strings, in order, as a filter on truthiness keeps them. */
  function DropEmpty(xs: seq<string>): (ys: seq<string>)
    ensures |ys| <= |xs|
    ensures forall k :: 0 <= k < |ys| ==> ys[k] != "" && ys[k] in xs
  {
    if |xs| == 0 then []
    else if xs[0] == "" then DropEmpty(xs[1..])
    else [xs[0]] + DropEmpty(xs[1..])
  }

  /** The lines the bucket list is read from: trimmed stdout split on newlines. */
  function ListingLines(stdout: string): seq<string> {
    Split(Trim(stdout), '\n')
  }

  /** The variables the listing writes decide the throwaway remote on their
      own: whatever definition of it the parent's environment holds is
      overridden, so two listings with the same credentials run with the
      same remote whatever an earlier one left. */
  lemma ListEnvOverrides(base: map<string, string>, c: Credentials, c0: Credentials)
    ensures ListEnv(ListEnv(base, c0), c) == ListEnv(base, c)
  {
  }

  /** The bucket names in the listing's stdout (main.js:109): the output is
      trimmed and split at newlines, each line loses one trailing slash, and
      the lines left empty are dropped. */
  function ParseBuckets(stdout: string): (buckets: seq<string>)
    ensures |buckets| <= |ListingLines(stdout)|
    ensures forall k :: 0 <= k < |buckets| ==> buckets[k] != "" && '\n' !in buckets[k]
  {
    var lines := ListingLines(stdout);
    var r := DropEmpty(StripAll(lines));
    assert forall k :: 0 <= k < |r| ==> '\n' !in r[k] by {
      forall k | 0 <= k < |r|
        ensures '\n' !in r[k]
      {
        var j :| 0 <= j < |lines| && StripAll(lines)[j] == r[k];
        assert '\n' !in lines[j];
      }
    }
    r
  }

  /** Number of non-empty entries of `xs`. */
  function CountNonEmpty(xs: seq<string>): nat {
    if |xs| == 0 then 0 else (if xs[0] != "" then 1 else 0) + CountNonEmpty(xs[1..])
  }

  function Shift(idx: seq<nat>): (r: seq<nat>)
    ensures |r| == |idx|
    ensures forall k :: 0 <= k < |r| ==> r[k] == idx[k] + 1
  {
    seq(|idx|, k requires 0 <= k < |idx| => idx[k] + 1)
  }

  /** Positions of the non-empty entries of `xs`, ascending: an independent
      description of what `filter(Boolean)` keeps. Being strictly ascending,
      pointing only at non-empty entries and as many as there are, it names
      every non-empty entry. */
  function KeptIndices(xs: seq<string>): (idx: seq<nat>)
    ensures |idx| == CountNonEmpty(xs)
    ensures forall k :: 0 <= k < |idx| ==> idx[k] < |xs| && xs[idx[k]] != ""
    ensures forall k, l :: 0 <= k < l < |idx| ==> idx[k] < idx[l]
  {
    if |xs| == 0 then []
    else
      var rest := KeptIndices(xs[1..]);
      assert forall k :: 0 <= k < |rest| ==> xs[rest[k] + 1] == xs[1..][rest[k]];
      if xs[0] != "" then [0] + Shift(rest) else Shift(rest)
  }

  /** `filter(Boolean)` keeps exactly the entries at `KeptIndices`, in order. */
  lemma {:induction false} DropEmptyIsKeptIndices(xs: seq<string>)
    ensures |DropEmpty(xs)| == |KeptIndices(xs)|
    ensures forall k :: 0 <= k < |DropEmpty(xs)| ==> DropEmpty(xs)[k] == xs[KeptIndices(xs)[k]]
  {
    if |xs| > 0 {
      DropEmptyIsKeptIndices(xs[1..]);
      var rest := KeptIndices(xs[1..]);
      assert forall k :: 0 <= k < |rest| ==> xs[rest[k] + 1] == xs[1..][rest[k]];
    }
  }

  /** The bucket list is exactly the slash-stripped listing lines that are not
      empty, in their original order. */
  lemma ParseBucketsSelectsLines(stdout: string)
    ensures var lines := StripAll(ListingLines(stdout));
            var idx := KeptIndices(lines);
            && |ParseBuckets(stdout)| == |idx|
            && forall k :: 0 <= k < |idx| ==> ParseBuckets(stdout)[k] == lines[idx[k]]
  {
    DropEmptyIsKeptIndices(StripAll(ListingLines(stdout)));
  }

  /** A bucket name as `rclone lsf --dirs-only` prints one per line: non-empty,
      no newline, no trailing `/`, no leading whitespace. */
  predicate PlainName(n: string) {
    |n| > 0 && '\n' !in n && n[|n| - 1] != '/' && !IsWhitespace(n[0])
  }

  /** What `rclone lsf --dirs-only` prints for these directories: `name/` and a newline each. */
  function RenderListing(names: seq<string>): string {
    if |names| == 0 then "" else names[0] + "/\n" + RenderListing(names[1..])
  }

  function Slashed(names: seq<string>): (r: seq<string>)
    ensures |r| == |names|
    ensures forall k :: 0 <= k < |r| ==> r[k] == names[k] + "/"
  {
    seq(|names|, k requires 0 <= k < |names| => names[k] + "/")
  }

  lemma {:induction false} RenderListingIsJoin(names: seq<string>)
    requires |names| > 0
    ensures RenderListing(names) == Join(Slashed(names), '\n') + "\n"
  {
    if |names| > 1 {
      RenderListingIsJoin(names[1..]);
      assert Slashed(names)[1..] == Slashed(names[1..]);
    }
  }

  lemma TrimDropsFinalNewline(x: string)
    requires |x| > 0 && !IsWhitespace(x[0]) && !IsWhitespace(x[|x| - 1])
    ensures Trim(x + "\n") == x
  {
    var y := x + "\n";
    assert y[..|y| - 1] == x;
    assert LeadingWhitespace(y) == 0;
    assert TrailingCut(y) == TrailingCut(x);
    TrimKeepsTrimmed(x);
    assert y[0..] == y;
  }

  lemma {:induction false} DropEmptyKeepsNonEmpty(xs: seq<string>)
    requires forall k :: 0 <= k < |xs| ==> xs[k] != ""
    ensures DropEmpty(xs) == xs
  {
    if |xs| > 0 {
      DropEmptyKeepsNonEmpty(xs[1..]);
    }
  }

  /** Parsing what rclone prints for a list of directories gives back that list. */
  lemma ParseRenderedListing(names: seq<string>)
    requires forall k :: 0 <= k < |names| ==> PlainName(names[k])
    ensures ParseBuckets(RenderListing(names)) == names
  {
    if |names| == 0 {
      assert Trim("") == "";
      assert DropEmpty(StripAll([""])) == [];
    } else {
      RenderedLines(names);
      StripSlashed(names);
      DropEmptyKeepsNonEmpty(names);
    }
  }

  lemma RenderedLines(names: seq<string>)
    requires |names| > 0
    requires forall k :: 0 <= k < |names| ==> PlainName(names[k])
    ensures ListingLines(RenderListing(names)) == Slashed(names)
  {
    TrimRendered(names);
    SlashedSeparatorFree(names);
    SplitJoin(Slashed(names), '\n');
  }

  lemma TrimRendered(names: seq<string>)
    requires |names| > 0
    requires forall k :: 0 <= k < |names| ==> PlainName(names[k])
    ensures Trim(RenderListing(names)) == Join(Slashed(names), '\n')
  {
    RenderListingIsJoin(names);
    JoinedListingIsTrimmed(names);
    TrimDropsFinalNewline(Join(Slashed(names), '\n'));
  }

  lemma JoinedListingIsTrimmed(names: seq<string>)
    requires |names| > 0
    requires forall k :: 0 <= k < |names| ==> PlainName(names[k])
    ensures var joined := Join(Slashed(names), '\n');
            |joined| > 0 && !IsWhitespace(joined[0]) && !IsWhitespace(joined[|joined| - 1])
  {
    var parts := Slashed(names);
    assert forall k :: 0 <= k < |parts| ==> |parts[k]| > 0;
    JoinStartsAndEnds(parts, '\n');
  }

  lemma SlashedSeparatorFree(names: seq<string>)
    requires forall k :: 0 <= k < |names| ==> PlainName(names[k])
    ensures forall k :: 0 <= k < |names| ==> '\n' !in Slashed(names)[k]
  {
    forall k | 0 <= k < |names|
      ensures '\n' !in Slashed(names)[k]
    {
      assert Slashed(names)[k] == names[k] + "/";
    }
  }

  lemma StripSlashed(names: seq<string>)
    ensures StripAll(Slashed(names)) == names
  {
    forall k | 0 <= k < |names|
      ensures StripAll(Slashed(names))[k] == names[k]
    {
      assert (names[k] + "/")[..|names[k]|] == names[k];
    }
  }

  lemma {:induction false} JoinStartsAndEnds(parts: seq<string>, sep: char)
    requires |parts| >= 1
    requires forall k :: 0 <= k < |parts| ==> |parts[k]| > 0
    ensures |Join(parts, sep)| > 0
    ensures Join(parts, sep)[0] == parts[0][0]
    ensures Join(parts, sep)[|Join(parts, sep)| - 1] == parts[|parts| - 1][|parts[|parts| - 1]| - 1]
  {
    if |parts| > 1 {
      JoinStartsAndEnds(parts[1..], sep);
    }
  }

  /** How a listing child ended. It closed with the captured streams; or its
      `error` event fired because it could not be started; or, as Node does
      when the executable is missing, `error` fired and then `close` came
      with the negative error number and nothing captured. */
  datatype ListEnd =
    | ListClosed(code: ExitCode, stdout: string, stderr: string)
    | ListSpawnFailed(message: string)
    | ListSpawnFailedThenClosed(message: string, code: ExitCode)

  /** The value the `list-buckets` handler resolves with. */
  datatype ListReply = Listed(buckets: seq<string>) | ListFailed(error: string)

  datatype ListOutcome = ListOutcome(reply: ListReply, reports: seq<Report>)

  /** The listing's `close` listener (main.js:103-111). */
  function OnListClose(code: ExitCode, stdout: string, stderr: string): (r: ListOutcome)
    ensures r.reply.Listed? <==> !code.Failed()
    ensures |r.reports| == (if code.Failed() then 1 else 0)
  {
    if code.Failed() then
      var error := if stderr != "" then stderr else "rclone exited with code " + code.Text();
      ListOutcome(ListFailed(error), [Report("Failed to list buckets: " + error, Error)])
    else
      ListOutcome(Listed(ParseBuckets(stdout)), [])
  }

  /** The listing's `error` listener (main.js:113-116). */
  function OnListError(message: string): (r: ListOutcome)
    ensures r.reply == ListFailed(message) && |r.reports| == 1
  {
    ListOutcome(ListFailed(message), [Report("Failed to start rclone for listing buckets: " + message, Error)])
  }

  /** The `close` and `error` listeners of a listing (main.js:103-117): the
      promise keeps the first value it is resolved with, and every listener
      that fires sends its own report. */
  function ListBuckets(end: ListEnd): (r: ListOutcome)
    ensures r.reply.Listed? <==> end.ListClosed? && !end.code.Failed()
    ensures r.reply.Listed? ==> r.reply.buckets == ParseBuckets(end.stdout) && r.reports == []
    ensures r.reply.ListFailed? ==> 1 <= |r.reports| <= 2 && forall k :: 0 <= k < |r.reports| ==> r.reports[k].severity == Error
    ensures |r.reports| == 2 <==> end.ListSpawnFailedThenClosed? && end.code.Failed()
    ensures end.ListClosed? && end.code.Failed() && end.stderr != "" ==> r.reply == ListFailed(end.stderr)
    ensures end.ListClosed? && end.code.Failed() && end.stderr == "" ==>
              r.reply.ListFailed? && |r.reply.error| > |end.code.Text()| &&
              r.reply.error[|r.reply.error| - |end.code.Text()|..] == end.code.Text()
    ensures end.ListClosed? && end.code.Failed() && end.stderr == "" ==>
              r.reply == ListFailed("rclone exited with code " + end.code.Text())
    ensures end.ListClosed? && end.code.Failed() ==>
              r.reports == [Report("Failed to list buckets: " + r.reply.error, Error)]
    ensures !end.ListClosed? ==> r.reply == ListFailed(end.message)
    ensures !end.ListClosed? ==>
              r.reports[0] == Report("Failed to start rclone for listing buckets: " + end.message, Error)
    ensures end.ListSpawnFailedThenClosed? && end.code.Failed() ==>
              |r.reports[1].message| > |end.code.Text()| &&
              r.reports[1].message[|r.reports[1].message| - |end.code.Text()|..] == end.code.Text()
  {
    match end
    case ListClosed(code, stdout, stderr) => OnListClose(code, stdout, stderr)
    case ListSpawnFailed(message) => OnListError(message)
    case ListSpawnFailedThenClosed(message, code) =>
      var first := OnListError(message);
      ListOutcome(first.reply, first.reports + OnListClose(code, "", "").reports)
  }

  /** A child that could not be started and then closes is the two listeners
      in turn: the reply is the start failure's, and the close adds its own
      report after the start failure's. */
  lemma StartFailureThenClose(message: string, code: ExitCode)
    ensures var r := ListBuckets(ListSpawnFailedThenClosed(message, code));
            && r.reply == ListBuckets(ListSpawnFailed(message)).reply
            && r.reports == ListBuckets(ListSpawnFailed(message)).reports + ListBuckets(ListClosed(code, "", "")).reports
  {
  }

  /** How the `rclone --version` probe ended. */
  datatype ProbeEnd = ProbeClosed(code: ExitCode) | ProbeError

  /** The `check-rclone` handler (main.js:121-127): rclone is available only
      when the probe closed with code 0. */
  function RcloneAvailable(end: ProbeEnd): (available: bool)
    ensures available <==> end == ProbeClosed(Code(0))
  {
    match end
    case ProbeClosed(code) => !code.Failed()
    case ProbeError => false
  }
}

=== FILE: common.dfy ===
/** Small vocabulary shared by the main-process and renderer models. */
module Common {
  import JsText

  datatype Option<+T> = None | Some(value: T)

  /** The `type` tag a status message carries to the renderer's log. */
  datatype Severity = Info | Success | Warn | Error

  /** One `status-update` message: `sendStatus(message, type)`. */
  datatype Report = Report(message: string, severity: Severity)

  /** The code a child's `close` event reports: an integer, or `null` when the
      child was ended by a signal. */
  datatype ExitCode = Code(n: int) | NoCode {
    /** JavaScript's `code !== 0` / `closeCode !== 0`. */
    predicate Failed() {
      this != Code(0)
    }

    /** The code as a template literal prints it: `${closeCode}`. */
    function Text(): (t: string)
      ensures |t| >= 1
      ensures Code? && n >= 0 ==> JsText.IsDigits(t) && JsText.DigitsValue(t) == n
      ensures NoCode? ==> t == "null"
    {
      match this
      case Code(n) => JsText.IntToString(n)
      case NoCode => "null"
    }
  }
}

=== FILE: js_text.dfy ===
/** The JavaScript string operations the application relies on:
    `String.prototype.trim`, `split` on a one-character separator, and the
    decimal rendering of an integer inside a template literal. */
module JsText {

  /** ECMAScript WhiteSpace and LineTerminator code points: exactly what `trim` removes. */
  predicate IsWhitespace(c: char) {
    || c == '\t' || c == '\n' || c == '\U{000B}' || c == '\U{000C}' || c == '\r' || c == ' '
    || c == '\U{00A0}' || c == '\U{1680}' || ('\U{2000}' <= c <= '\U{200A}')
    || c == '\U{2028}' || c == '\U{2029}' || c == '\U{202F}' || c == '\U{205F}'
    || c == '\U{3000}' || c == '\U{FEFF}'
  }

  predicate AllWhitespace(s: string) {
    forall k :: 0 <= k < |s| ==> IsWhitespace(s[k])
  }

  /** Length of the longest all-whitespace prefix of `s`. */
  function LeadingWhitespace(s: string): (n: nat)
    ensures n <= |s|
    ensures AllWhitespace(s[..n])
    ensures n < |s| ==> !IsWhitespace(s[n])
  {
    if |s| == 0 || !IsWhitespace(s[0]) then 0
    else
      var n := 1 + LeadingWhitespace(s[1..]);
      assert s[..n] == [s[0]] + s[1..][..n - 1];
      n
  }

  /** Length of `s` without its longest all-whitespace suffix. */
  function TrailingCut(s: string): (n: nat)
    ensures n <= |s|
    ensures AllWhitespace(s[n..])
    ensures n > 0 ==> !IsWhitespace(s[n - 1])
  {
    if |s| == 0 || !IsWhitespace(s[|s| - 1]) then |s|
    else
      var n := TrailingCut(s[..|s| - 1]);
      assert s[n..] == s[..|s| - 1][n..] + [s[|s| - 1]];
      n
  }

  /** `t` is `s` with a whitespace prefix and a whitespace suffix removed,
      and `t` neither starts nor ends with whitespace. */
  ghost predicate IsTrimOf(t: string, s: string) {
    && (|t| > 0 ==> !IsWhitespace(t[0]) && !IsWhitespace(t[|t| - 1]))
    && exists i, j :: 0 <= i <= j <= |s| && t == s[i..j] && AllWhitespace(s[..i]) && AllWhitespace(s[j..])
  }

  /** `String.prototype.trim`. */
  function Trim(s: string): (t: string)
    ensures |t| <= |s|
  {
    var rest := s[LeadingWhitespace(s)..];
    rest[..TrailingCut(rest)]
  }

  /** `trim` removes a whitespace prefix and a whitespace suffix, and what is
      left neither starts nor ends with whitespace. */
  lemma TrimIsTrimOf(s: string)
    ensures IsTrimOf(Trim(s), s)
  {
    var i := LeadingWhitespace(s);
    var rest := s[i..];
    var j := TrailingCut(rest);
    assert rest[j..] == s[i + j..];
    assert rest[..j] == s[i..i + j];
    assert j > 0 ==> rest[..j][0] == s[i];
  }

  /** Trimming empties a string exactly when every character of it is whitespace. */
  lemma TrimEmptyIffBlank(s: string)
    ensures Trim(s) == "" <==> AllWhitespace(s)
  {
    var i := LeadingWhitespace(s);
    var rest := s[i..];
    var j := TrailingCut(rest);
    if Trim(s) == "" {
      assert j == 0;
      assert rest[0..] == rest;
      assert s[..i] == s;
    }
  }

  /** A string that neither starts nor ends with whitespace is its own trim. */
  lemma TrimKeepsTrimmed(s: string)
    requires |s| > 0 ==> !IsWhitespace(s[0]) && !IsWhitespace(s[|s| - 1])
    ensures Trim(s) == s
  {
    assert s[0..] == s;
    assert s[..|s|] == s;
  }

  /** Number of occurrences of `c` in `s`. */
  function Occurrences(s: string, c: char): nat {
    if |s| == 0 then 0 else (if s[0] == c then 1 else 0) + Occurrences(s[1..], c)
  }

  /** `s.split(sep)` for a one-character separator: the pieces between
      separators, always at least one (`"".split("\n")` is `[""]`). */
  function Split(s: string, sep: char): (parts: seq<string>)
    ensures |parts| == Occurrences(s, sep) + 1
    ensures forall k :: 0 <= k < |parts| ==> sep !in parts[k]
  {
    if |s| == 0 then [""]
    else
      var rest := Split(s[1..], sep);
      if s[0] == sep then [""] + rest
      else [[s[0]] + rest[0]] + rest[1..]
  }

  /** `parts.join(sep)`. */
  function Join(parts: seq<string>, sep: char): string
    requires |parts| >= 1
  {
    if |parts| == 1 then parts[0] else parts[0] + [sep] + Join(parts[1..], sep)
  }

  /** Joining the pieces of a split gives back the original string. */
  lemma {:induction false} JoinSplit(s: string, sep: char)
    ensures Join(Split(s, sep), sep) == s
  {
    if |s| == 0 {
    } else {
      var rest := Split(s[1..], sep);
      JoinSplit(s[1..], sep);
      if s[0] == sep {
        assert Split(s, sep)[1..] == rest;
      } else {
        var parts := Split(s, sep);
        if |rest| == 1 {
          assert parts == [[s[0]] + rest[0]];
        } else {
          assert parts[1..] == rest[1..];
          assert Join(rest, sep) == rest[0] + [sep] + Join(rest[1..], sep);
        }
        assert s == [s[0]] + s[1..];
      }
    }
  }

  /** Splitting a join of separator-free pieces gives back the pieces. */
  lemma {:induction false} SplitJoin(parts: seq<string>, sep: char)
    requires |parts| >= 1
    requires forall k :: 0 <= k < |parts| ==> sep !in parts[k]
    ensures Split(Join(parts, sep), sep) == parts
  {
    if |parts| == 1 {
      SplitOfSeparatorFree(parts[0], sep);
    } else {
      SplitJoin(parts[1..], sep);
      SplitPrefixed(parts[0], sep, Join(parts[1..], sep));
    }
  }

  lemma {:induction false} SplitOfSeparatorFree(s: string, sep: char)
    requires sep !in s
    ensures Split(s, sep) == [s]
  {
    if |s| > 0 {
      SplitOfSeparatorFree(s[1..], sep);
      assert s == [s[0]] + s[1..];
    }
  }

  lemma {:induction false} SplitPrefixed(head: string, sep: char, tail: string)
    requires sep !in head
    ensures Split(head + [sep] + tail, sep) == [head] + Split(tail, sep)
  {
    if |head| == 0 {
      assert head + [sep] + tail == [sep] + tail;
      assert ([sep] + tail)[1..] == tail;
    } else {
      SplitPrefixed(head[1..], sep, tail);
      assert (head + [sep] + tail)[1..] == head[1..] + [sep] + tail;
      assert [head[0]] + head[1..] == head;
    }
  }

  function DigitChar(d: nat): (c: char)
    requires d < 10
    ensures '0' <= c <= '9'
    ensures (c as int) - ('0' as int) == d
  {
    (('0' as int) + d) as char
  }

  predicate IsDigits(s: string) {
    forall k :: 0 <= k < |s| ==> '0' <= s[k] <= '9'
  }

  /** The number a string of decimal digits denotes. */
  function DigitsValue(s: string): nat
    requires IsDigits(s)
  {
    if |s| == 0 then 0 else 10 * DigitsValue(s[..|s| - 1]) + ((s[|s| - 1] as int) - ('0' as int))
  }

  /** Decimal rendering of a natural number, as `${n}` prints it: no leading zeros. */
  function NatToString(n: nat): (r: string)
    ensures |r| >= 1 && IsDigits(r)
    ensures r[0] == '0' ==> n == 0
    ensures |r| > 1 ==> r[0] != '0'
  {
    if n < 10 then [DigitChar(n)] else NatToString(n / 10) + [DigitChar(n % 10)]
  }

  /** Reading the digits back yields the number rendered. */
  lemma {:induction false} NatToStringRoundTrip(n: nat)
    ensures DigitsValue(NatToString(n)) == n
  {
    if n >= 10 {
      NatToStringRoundTrip(n / 10);
      var r := NatToString(n);
      assert r[..|r| - 1] == NatToString(n / 10);
    }
  }

  /** Decimal rendering of an integer, as `${i}` prints it. */
  function IntToString(i: int): (r: string)
    ensures |r| >= 1
    ensures i < 0 <==> r[0] == '-'
    ensures i >= 0 ==> IsDigits(r) && DigitsValue(r) == i
    ensures i < 0 ==> IsDigits(r[1..]) && DigitsValue(r[1..]) == -i
  {
    NatToStringRoundTrip(if i < 0 then -i else i);
    if i < 0 then
      var digits := NatToString(-i);
      assert ("-" + digits)[1..] == digits;
      "-" + digits
    else NatToString(i)
  }
}

=== FILE: renderer.dfy ===
/** The renderer's decisions (renderer.js), taken out of the DOM code: the
    status pill and the enabled state of every control, the validation that
    guards mounting, listing and saving, the loading and deleting of saved
    profiles, the encryption gate in front of mount and refresh, and the
    `isMounted` flag the main process's events drive. A `Page` holds what the
    code keeps in variables and in the form's DOM values. */
module Renderer {
  import opened Common
  import opened JsText
  import Supervisor
  import BucketList

  /** The text inputs of the profile form (`allFormInputs`, renderer.js:31). */
  datatype Form = Form(
    profileName: string, endpoint: string, accessKey: string, secretKey: string,
    configPassword: string, mountPoint: string)

  /** The text of an `<option>`: a bucket's own name, or one of the
      placeholders the handlers put in an emptied bucket select. */
  datatype Caption = Named(name: string) | NoBuckets | ListingFailed | PickBucket | NeedCredentials {
    function Text(): string {
      match this
      case Named(name) => name
      case NoBuckets => "-- Inga buckets hittades --"
      case ListingFailed => "-- Fel vid hämtning av buckets --"
      case PickBucket => "-- Välj en bucket --"
      case NeedCredentials => "-- Ange inloggningsuppgifter för att lista buckets --"
    }
  }

  /** One `<option>` of a select element. */
  datatype Choice = Choice(value: string, caption: Caption)

  /** The bucket `<select>`: its options and the value it shows. */
  datatype Select = Select(options: seq<Choice>, value: string)

  /** A saved profile as the save handler writes it; it has no place for the
      configuration password. */
  datatype Stored = Stored(
    profileName: string, endpoint: string, accessKey: string, secretKey: string,
    bucketName: string, mountPoint: string)

  /** The renderer's state: the saved profiles, the profile select's value,
      the form, the bucket select, the two flags, whether the password modal
      is shown, and the log panel's entries. */
  datatype Page = Page(
    profiles: map<string, Stored>,
    selected: string,
    form: Form,
    bucket: Select,
    isMounted: bool,
    rcloneAvailable: bool,
    modalShown: bool,
    log: seq<Entry>)

  /** The renderer's own log lines, by the line of renderer.js that logs
      each; `Text` renders the exact string and `Severity` the `type` tag. */
  datatype Note =
    | NameMissing
    | Saved(name: string)
    | FieldsMissing
    | CredentialsMissing
    | Fetching
    | Fetched(count: nat)
    | FetchFailed
    | Deleted(name: string)
    | Starting
    | RcloneFound
    | RcloneNotFound
  {
    function Text(): string {
      match this
      case NameMissing => "Profilnamn får inte vara tomt."
      case Saved(name) => "Profilen \"" + name + "\" har sparats."
      case FieldsMissing => "Vänligen fyll i alla konfigurationsfält innan montering."
      case CredentialsMissing => "Endpoint, Access Key och Secret Key krävs för att lista buckets."
      case Fetching => "Hämtar bucket-lista..."
      case Fetched(count) => "Hämtade " + NatToString(count) + " buckets."
      case FetchFailed => "Kunde inte hämta buckets. Kontrollera inloggningsuppgifter och konfigurationslösenord."
      case Deleted(name) => "Profilen \"" + name + "\" har tagits bort."
      case Starting => "Applikationen startad. Söker efter rclone..."
      case RcloneFound => "rclone hittades."
      case RcloneNotFound => "Kommandot rclone hittades inte i PATH. Vänligen installera det."
    }

    function Severity(): Severity {
      match this
      case Saved(_) | Fetched(_) | RcloneFound => Success
      case CredentialsMissing => Warn
      case Fetching | Deleted(_) | Starting => Info
      case NameMissing | FieldsMissing | FetchFailed | RcloneNotFound => Error
    }
  }

  /** A line of the log panel: one of the renderer's own, or a status the
      main process sent. */
  datatype Entry = Local(note: Note) | Remote(message: Supervisor.Message) {
    /** What `log(message, type)` receives for the line. */
    function ToReport(): Report {
      match this
      case Local(note) => Report(note.Text(), note.Severity())
      case Remote(message) => message.ToReport()
    }
  }

  /** What the renderer asks of the main process. */
  datatype Request =
    | MountCall(profile: Supervisor.Profile)
    | ListCall(credentials: BucketList.Credentials)
    | SaveCall(profiles: map<string, Stored>)
    | UnmountCall

  /** A handler's effect: the page afterwards and the requests it sent, in order. */
  datatype Reaction = Reaction(page: Page, requests: seq<Request>)

  const EmptyForm := Form("", "", "", "", "", "")

  function Values(options: seq<Choice>): (vs: seq<string>)
    ensures |vs| == |options|
    ensures forall k :: 0 <= k < |options| ==> vs[k] == options[k].value
  {
    if |options| == 0 then [] else [options[0].value] + Values(options[1..])
  }

  function Log(p: Page, note: Note): Page {
    p.(log := p.log + [Local(note)])
  }

  // ---------------------------------------------------------------- pill

  /** The three texts of the status pill. */
  datatype Pill = PillMounted | PillIdle | PillMissing {
    function Text(): string {
      match this
      case PillMounted => "Monterad"
      case PillIdle => "Inte monterad"
      case PillMissing => "rclone saknas"
    }
  }

  /** `updateStatusPill` (renderer.js:39-52): being mounted outranks whether
      rclone was found. */
  function StatusPill(p: Page): (pill: Pill)
    ensures pill == PillMounted <==> p.isMounted
    ensures pill == PillMissing <==> !p.isMounted && !p.rcloneAvailable
  {
    if p.isMounted then PillMounted
    else if p.rcloneAvailable then PillIdle
    else PillMissing
  }

  // ---------------------------------------------------------------- controls

  /** Which controls `updateButtonStates` disables; `true` is disabled.
      `inputs` covers every input of the form, the password included. */
  datatype Disabled = Disabled(
    deleteProfile: bool, saveProfile: bool, refresh: bool, mount: bool, unmount: bool,
    inputs: bool, bucketSelect: bool, browse: bool)

  /** Everything is disabled except the unmount button. */
  predicate Locked(d: Disabled) {
    && d.deleteProfile && d.saveProfile && d.refresh && d.mount
    && d.inputs && d.bucketSelect && d.browse && !d.unmount
  }

  /** `updateButtonStates` (renderer.js:54-76). The listing fields are tested
      as typed, without trimming. */
  function ButtonStates(p: Page): (d: Disabled)
    ensures !(!d.mount && !d.unmount)
    ensures Locked(d) <==> p.isMounted
    ensures !p.isMounted ==> d.unmount
    ensures !p.isMounted ==> !d.saveProfile && !d.inputs && !d.bucketSelect && !d.browse
    ensures !d.mount <==> !p.isMounted && p.rcloneAvailable
    ensures !d.refresh <==> !p.isMounted && p.form.endpoint != "" && p.form.accessKey != "" && p.form.secretKey != ""
    ensures !d.deleteProfile <==> !p.isMounted && p.selected != ""
  {
    var canList := p.form.endpoint != "" && p.form.accessKey != "" && p.form.secretKey != "";
    var common := Disabled(p.isMounted || p.selected == "", p.isMounted, p.isMounted || !canList, true, true, true, true, true);
    if p.isMounted then common.(unmount := false)
    else common.(mount := !p.rcloneAvailable, inputs := false, bucketSelect := false, browse := false)
  }

  /** The pill and the buttons never disagree: unmount is offered exactly when
      the pill reads "Monterad", and mount exactly when it reads "Inte monterad". */
  lemma PillMatchesButtons(p: Page)
    ensures !ButtonStates(p).unmount <==> StatusPill(p) == PillMounted
    ensures !ButtonStates(p).mount <==> StatusPill(p) == PillIdle
  {
  }

  // ---------------------------------------------------------------- validation

  /** The profile `handleMount` builds (renderer.js:148-163): four fields
      trimmed, the secret key as typed, the bucket as selected; it is sent
      only when none of the six is empty. The password is passed along but
      never required. */
  function MountProfile(f: Form, bucket: string): (r: Option<Supervisor.Profile>)
    ensures r.Some? <==>
              && !AllWhitespace(f.profileName) && !AllWhitespace(f.endpoint) && !AllWhitespace(f.accessKey)
              && f.secretKey != "" && bucket != "" && !AllWhitespace(f.mountPoint)
    ensures r.Some? ==>
              && IsTrimOf(r.value.profileName, f.profileName) && r.value.profileName != ""
              && IsTrimOf(r.value.endpoint, f.endpoint) && IsTrimOf(r.value.accessKey, f.accessKey)
              && IsTrimOf(r.value.mountPoint, f.mountPoint)
              && r.value.secretKey == f.secretKey && r.value.bucketName == bucket
              && r.value.configPassword == f.configPassword
  {
    TrimEmptyIffBlank(f.profileName);
    TrimEmptyIffBlank(f.endpoint);
    TrimEmptyIffBlank(f.accessKey);
    TrimEmptyIffBlank(f.mountPoint);
    TrimIsTrimOf(f.profileName);
    TrimIsTrimOf(f.endpoint);
    TrimIsTrimOf(f.accessKey);
    TrimIsTrimOf(f.mountPoint);
    var q := Supervisor.Profile(Trim(f.profileName), Trim(f.endpoint), Trim(f.accessKey), f.secretKey,
                                bucket, Trim(f.mountPoint), f.configPassword);
    if q.profileName == "" || q.endpoint == "" || q.accessKey == "" || q.secretKey == ""
       || q.bucketName == "" || q.mountPoint == "" then None
    else Some(q)
  }

  /** `handleMount`: sends `mount` with the built profile, or logs an error. */
  function HandleMount(p: Page): (r: Reaction)
    ensures MountProfile(p.form, p.bucket.value).Some? ==>
              r == Reaction(p, [MountCall(MountProfile(p.form, p.bucket.value).value)])
    ensures MountProfile(p.form, p.bucket.value).None? ==>
              r.requests == [] && r.page == p.(log := r.page.log) &&
              r.page.log == p.log + [Local(FieldsMissing)]
  {
    match MountProfile(p.form, p.bucket.value)
    case Some(q) => Reaction(p, [MountCall(q)])
    case None => Reaction(Log(p, FieldsMissing), [])
  }

  /** The credentials `handleRefreshBuckets` sends (renderer.js:166-175):
      endpoint and access key trimmed, secret key and password as typed; the
      request is refused unless the first three are non-empty. */
  function ListCredentials(f: Form): (r: Option<BucketList.Credentials>)
    ensures r.Some? <==> !AllWhitespace(f.endpoint) && !AllWhitespace(f.accessKey) && f.secretKey != ""
    ensures r.Some? ==>
              && IsTrimOf(r.value.endpoint, f.endpoint) && IsTrimOf(r.value.accessKey, f.accessKey)
              && r.value.secretKey == f.secretKey && r.value.configPassword == f.configPassword
  {
    TrimEmptyIffBlank(f.endpoint);
    TrimEmptyIffBlank(f.accessKey);
    TrimIsTrimOf(f.endpoint);
    TrimIsTrimOf(f.accessKey);
    var c := BucketList.Credentials(Trim(f.endpoint), Trim(f.accessKey), f.secretKey, f.configPassword);
    if c.endpoint == "" || c.accessKey == "" || c.secretKey == "" then None else Some(c)
  }

  /** A listing the handler accepts is one the refresh button offers, when
      nothing is mounted. */
  lemma AcceptedListingWasOffered(p: Page)
    ensures !p.isMounted && ListCredentials(p.form).Some? ==> !ButtonStates(p).refresh
  {
  }

  /** The converse fails: the button tests the fields untrimmed, the handler
      trimmed, so an endpoint of one space enables the button and the click is
      then refused with a warning. */
  lemma OfferedListingCanBeRefused()
    ensures var p := Page(map[], "", Form("", " ", "key", "secret", "", ""), Select([], ""), false, true, false, []);
            && !ButtonStates(p).refresh
            && ListCredentials(p.form).None?
            && StartRefresh(p) == Reaction(Log(p, CredentialsMissing), [])
  {
    var f := Form("", " ", "key", "secret", "", "");
    assert AllWhitespace(f.endpoint);
  }

  /** First half of `handleRefreshBuckets`, up to its `await`: either the
      warning, or the "fetching" notice and the `list-buckets` request. */
  function StartRefresh(p: Page): (r: Reaction)
    ensures ListCredentials(p.form).None? ==>
              r == Reaction(Log(p, CredentialsMissing), [])
    ensures ListCredentials(p.form).Some? ==>
              r == Reaction(Log(p, Fetching), [ListCall(ListCredentials(p.form).value)])
  {
    match ListCredentials(p.form)
    case None => Reaction(Log(p, CredentialsMissing), [])
    case Some(c) => Reaction(Log(p, Fetching), [ListCall(c)])
  }

  /** The bucket select after a listing reply (renderer.js:182-203). The
      options are rebuilt; a select whose options were replaced shows its
      first option, unless the previous choice is among the new buckets. */
  function ListedSelect(current: string, reply: BucketList.ListReply): (r: Select)
    ensures r.value in Values(r.options)
    ensures reply.Listed? && |reply.buckets| > 0 ==> Values(r.options) == reply.buckets
    ensures reply.Listed? && current in reply.buckets ==> r.value == current
    ensures reply.Listed? && |reply.buckets| > 0 && current !in reply.buckets ==> r.value == reply.buckets[0]
    ensures reply.Listed? && |reply.buckets| == 0 ==> r == Select([Choice("", NoBuckets)], "")
    ensures reply.ListFailed? ==> r == Select([Choice("", ListingFailed)], "")
  {
    match reply
    case Listed(buckets) =>
      if |buckets| == 0 then Select([Choice("", NoBuckets)], "")
      else
        var options := BucketChoices(buckets);
        Select(options, if current in buckets then current else buckets[0])
    case ListFailed(_) => Select([Choice("", ListingFailed)], "")
  }

  function BucketChoices(buckets: seq<string>): (options: seq<Choice>)
    ensures Values(options) == buckets
  {
    if |buckets| == 0 then []
    else
      var rest := BucketChoices(buckets[1..]);
      assert Values([Choice(buckets[0], Named(buckets[0]))] + rest) == [buckets[0]] + Values(rest);
      [Choice(buckets[0], Named(buckets[0]))] + rest
  }

  /** A listing keeps the chosen bucket exactly when the new list holds it
      (for a non-empty choice): any other reply moves the select away from it. */
  lemma ListingKeepsChoice(current: string, reply: BucketList.ListReply)
    requires current != ""
    ensures ListedSelect(current, reply).value == current <==> reply.Listed? && current in reply.buckets
  {
    var r := ListedSelect(current, reply);
    if r.value == current && reply.Listed? && |reply.buckets| > 0 {
      assert current in Values(r.options);
    }
  }

  /** Second half of `handleRefreshBuckets`: the new bucket select and the
      log line for the reply. */
  function FinishRefresh(p: Page, reply: BucketList.ListReply): (q: Page)
    ensures q == p.(bucket := q.bucket, log := q.log)
    ensures q.bucket == ListedSelect(p.bucket.value, reply)
    ensures reply.Listed? && |reply.buckets| > 0 ==>
              q.log == p.log + [Local(Fetched(|reply.buckets|))]
    ensures reply.Listed? && |reply.buckets| == 0 ==> q.log == p.log
    ensures reply.ListFailed? ==> q.log == p.log + [Local(FetchFailed)]
  {
    var p1 := p.(bucket := ListedSelect(p.bucket.value, reply));
    match reply
    case Listed(buckets) =>
      if |buckets| == 0 then p1
      else Log(p1, Fetched(|buckets|))
    case ListFailed(_) =>
      Log(p1, FetchFailed)
  }

  // ---------------------------------------------------------------- profiles

  /** The record the save handler stores for a form (renderer.js:132-139). */
  function Record(f: Form, bucket: string): Stored {
    Stored(Trim(f.profileName), Trim(f.endpoint), Trim(f.accessKey), f.secretKey, bucket, Trim(f.mountPoint))
  }

  /** `handleSaveProfile` (renderer.js:128-146). A blank name is refused with
      an error and nothing else; otherwise exactly the entry under the trimmed
      name is written, the whole table is sent to be persisted, and the
      profile select moves to that name. The form is left as it was. */
  function SaveProfile(p: Page): (r: Reaction)
    ensures AllWhitespace(p.form.profileName) ==>
              r == Reaction(Log(p, NameMissing), [])
    ensures !AllWhitespace(p.form.profileName) ==>
              var name := Trim(p.form.profileName);
              && name != ""
              && r.page.profiles.Keys == p.profiles.Keys + {name}
              && r.page.profiles[name] == Record(p.form, p.bucket.value)
              && (forall k :: k in p.profiles && k != name ==> r.page.profiles[k] == p.profiles[k])
              && r.requests == [SaveCall(r.page.profiles)]
              && r.page == p.(profiles := r.page.profiles, selected := name, log := r.page.log)
              && r.page.log == p.log + [Local(Saved(name))]
  {
    TrimEmptyIffBlank(p.form.profileName);
    var name := Trim(p.form.profileName);
    if name == "" then Reaction(Log(p, NameMissing), [])
    else
      var profiles := p.profiles[name := Record(p.form, p.bucket.value)];
      Reaction(Log(p.(profiles := profiles, selected := name), Saved(name)),
               [SaveCall(profiles)])
  }

  /** `loadProfileIntoForm` (renderer.js:98-124): fills the form from the
      selected profile, clearing the password, or empties the form when the
      selection names no profile. */
  function LoadProfile(p: Page): (q: Page)
    ensures q == p.(form := q.form, bucket := q.bucket)
    ensures q.form.configPassword == ""
    ensures p.selected in p.profiles ==>
              var s := p.profiles[p.selected];
              && q.form == Form(s.profileName, s.endpoint, s.accessKey, s.secretKey, "", s.mountPoint)
              && q.bucket.value == s.bucketName && |q.bucket.options| == 1
    ensures p.selected !in p.profiles ==>
              q.form == EmptyForm && q.bucket == Select([Choice("", NeedCredentials)], "")
  {
    if p.selected in p.profiles then
      var s := p.profiles[p.selected];
      var bucket := if s.bucketName != "" then Select([Choice(s.bucketName, Named(s.bucketName))], s.bucketName)
                    else Select([Choice("", PickBucket)], "");
      p.(form := Form(s.profileName, s.endpoint, s.accessKey, s.secretKey, "", s.mountPoint), bucket := bucket)
    else
      p.(form := EmptyForm, bucket := Select([Choice("", NeedCredentials)], ""))
  }

  /** Saving and then loading the profile back gives the form as saved, with
      its trimmed fields trimmed and its password cleared. */
  lemma SaveThenLoad(p: Page)
    requires !AllWhitespace(p.form.profileName)
    ensures var q := LoadProfile(SaveProfile(p).page);
            && q.form == Form(Trim(p.form.profileName), Trim(p.form.endpoint), Trim(p.form.accessKey),
                              p.form.secretKey, "", Trim(p.form.mountPoint))
            && q.bucket.value == p.bucket.value
  {
  }

  /** A string `trim` leaves alone. */
  predicate Trimmed(s: string) {
    |s| > 0 ==> !IsWhitespace(s[0]) && !IsWhitespace(s[|s| - 1])
  }

  /** A saved record as the save handler itself would have written it under
      its key. */
  predicate WellFormed(key: string, s: Stored) {
    && s.profileName == key && key != ""
    && Trimmed(s.profileName) && Trimmed(s.endpoint) && Trimmed(s.accessKey) && Trimmed(s.mountPoint)
  }

  /** Loading a well-formed profile and saving it straight back changes no
      saved profile and keeps the selection. */
  lemma LoadThenSave(p: Page)
    requires p.selected in p.profiles && WellFormed(p.selected, p.profiles[p.selected])
    ensures var r := SaveProfile(LoadProfile(p));
            r.page.profiles == p.profiles && r.page.selected == p.selected
  {
    var s := p.profiles[p.selected];
    var q := LoadProfile(p);
    assert q.profiles == p.profiles;
    LoadedRecord(s, q.form, q.bucket.value);
    assert Trim(q.form.profileName) != "";
    var r := SaveProfile(q);
    assert r.page.profiles == p.profiles[p.selected := s];
  }

  /** The record saved from a form loaded from a well-formed record is that
      record. */
  lemma LoadedRecord(s: Stored, f: Form, bucket: string)
    requires WellFormed(s.profileName, s)
    requires f == Form(s.profileName, s.endpoint, s.accessKey, s.secretKey, "", s.mountPoint) && bucket == s.bucketName
    ensures Record(f, bucket) == s && Trim(f.profileName) == s.profileName
  {
    TrimKeepsTrimmed(s.profileName);
    TrimKeepsTrimmed(s.endpoint);
    TrimKeepsTrimmed(s.accessKey);
    TrimKeepsTrimmed(s.mountPoint);
  }

  /** The delete button's handler (renderer.js:237-247); `confirmed` is the
      user's answer to the confirmation dialog. With a profile selected and
      the dialog accepted, exactly that profile is removed, the table is
      sent to be persisted and the form is emptied; otherwise nothing happens. */
  function DeleteProfile(p: Page, confirmed: bool): (r: Reaction)
    ensures p.selected == "" || !confirmed ==> r == Reaction(p, [])
    ensures p.selected != "" && confirmed ==>
              && r.page.profiles == p.profiles - {p.selected}
              && r.requests == [SaveCall(p.profiles - {p.selected})]
              && r.page.selected == ""
              && r.page.isMounted == p.isMounted
              && r.page.log == p.log + [Local(Deleted(p.selected))]
              && r.page == p.(profiles := r.page.profiles, selected := "", log := r.page.log,
                              form := r.page.form, bucket := r.page.bucket)
              && ("" !in p.profiles ==>
                    r.page.form == EmptyForm && r.page.bucket == Select([Choice("", NeedCredentials)], ""))
  {
    if p.selected != "" && confirmed then
      var p1 := LoadProfile(p.(profiles := p.profiles - {p.selected}, selected := ""));
      Reaction(Log(p1, Deleted(p.selected)), [SaveCall(p1.profiles)])
    else Reaction(p, [])
  }

  /** After a delete the deleted name is gone for good: loading it again
      finds nothing and empties the form. */
  lemma DeletedProfileIsGone(p: Page)
    requires p.selected != ""
    ensures var q := DeleteProfile(p, true).page;
            p.selected !in q.profiles && LoadProfile(q.(selected := p.selected)).form == EmptyForm
  {
  }

  // ---------------------------------------------------------------- gate

  /** How the encryption gate ends: the guarded action runs, the password
      modal opens, or the async function rejects before either. */
  datatype GateOutcome = Proceed | ShowModal | Rejected

  /** The methods the preload script exposes as `window.electronAPI`. */
  const PreloadApi: set<string> := {
    "checkRclone", "browseMountPoint", "loadProfiles", "saveProfiles", "mount", "unmount",
    "listBuckets", "onStatusUpdate", "onMountSuccessful", "onMountTerminated"}

  /** `checkEncryptionAndProceed` as written (renderer.js:207-219), given the
      set of exposed API methods: with an empty password it calls
      `isConfigEncrypted`, and calling a method that is not exposed throws. */
  function GateAsWritten(password: string, api: set<string>, encrypted: bool): (g: GateOutcome)
    ensures password != "" ==> g == Proceed
    ensures g == Rejected <==> password == "" && "isConfigEncrypted" !in api
  {
    if password != "" then Proceed
    else if "isConfigEncrypted" !in api then Rejected
    else if encrypted then ShowModal
    else Proceed
  }

  /** With the preload script as it is, an empty password field makes every
      mount and refresh click reject: the action never runs and no modal
      opens, whatever the configuration holds. */
  lemma GateAsWrittenRejects(encrypted: bool)
    ensures GateAsWritten("", PreloadApi, encrypted) == Rejected
  {
  }

  /** The gate as designed: the action runs when a password is typed or the
      configuration is not encrypted; otherwise the modal asks for one.
      `encrypted` is the answer of the main process's encryption query. */
  function Gate(password: string, encrypted: bool): (g: GateOutcome)
    ensures g != Rejected
    ensures g == Proceed <==> password != "" || !encrypted
    ensures g == ShowModal <==> password == "" && encrypted
  {
    if password != "" then Proceed
    else if encrypted then ShowModal
    else Proceed
  }

  /** Once the query is exposed, the code as written is the gate as designed. */
  lemma GateAgreesWhenExposed(password: string, api: set<string>, encrypted: bool)
    requires "isConfigEncrypted" in api
    ensures GateAsWritten(password, api, encrypted) == Gate(password, encrypted)
  {
  }

  /** What a gated click does once the gate has decided: the action runs,
      the password modal opens, or the async listener rejects and the page
      stays as it was with nothing sent. */
  function Gated(p: Page, g: GateOutcome, action: Reaction): (r: Reaction)
    ensures g == Proceed ==> r == action
    ensures g == ShowModal ==> r == Reaction(p.(modalShown := true), [])
    ensures g == Rejected ==> r == Reaction(p, [])
  {
    match g
    case Proceed => action
    case ShowModal => Reaction(p.(modalShown := true), [])
    case Rejected => Reaction(p, [])
  }

  /** A click on mount (renderer.js:224), behind the gate as written with the
      preload script's API. */
  function ClickMount(p: Page, encrypted: bool): (r: Reaction)
    ensures p.form.configPassword != "" ==> r == HandleMount(p)
    ensures p.form.configPassword == "" ==> r == Reaction(p, [])
  {
    var g := GateAsWritten(p.form.configPassword, PreloadApi, encrypted);
    assert p.form.configPassword == "" ==> g == Rejected by {
      if p.form.configPassword == "" {
        GateAsWrittenRejects(encrypted);
      }
    }
    Gated(p, g, HandleMount(p))
  }

  /** A click on refresh (renderer.js:223), behind the gate as written with
      the preload script's API. */
  function ClickRefresh(p: Page, encrypted: bool): (r: Reaction)
    ensures p.form.configPassword != "" ==> r == StartRefresh(p)
    ensures p.form.configPassword == "" ==> r == Reaction(p, [])
  {
    var g := GateAsWritten(p.form.configPassword, PreloadApi, encrypted);
    assert p.form.configPassword == "" ==> g == Rejected by {
      if p.form.configPassword == "" {
        GateAsWrittenRejects(encrypted);
      }
    }
    Gated(p, g, StartRefresh(p))
  }

  /** A click on mount behind the gate as designed. */
  function DesignedClickMount(p: Page, encrypted: bool): (r: Reaction)
    ensures Gate(p.form.configPassword, encrypted) == Proceed ==> r == HandleMount(p)
    ensures Gate(p.form.configPassword, encrypted) == ShowModal ==> r == Reaction(p.(modalShown := true), [])
  {
    Gated(p, Gate(p.form.configPassword, encrypted), HandleMount(p))
  }

  /** A click on refresh behind the gate as designed. */
  function DesignedClickRefresh(p: Page, encrypted: bool): (r: Reaction)
    ensures Gate(p.form.configPassword, encrypted) == Proceed ==> r == StartRefresh(p)
    ensures Gate(p.form.configPassword, encrypted) == ShowModal ==> r == Reaction(p.(modalShown := true), [])
  {
    Gated(p, Gate(p.form.configPassword, encrypted), StartRefresh(p))
  }

  /** As written, a mount request reaches the main process only with every
      required field filled and a config password typed: without one the
      gate rejects, whether or not the configuration is encrypted. */
  lemma MountRequestNeedsFields(p: Page, encrypted: bool)
    ensures ClickMount(p, encrypted).requests != [] ==>
              && p.form.configPassword != ""
              && MountProfile(p.form, p.bucket.value).Some?
              && ClickMount(p, encrypted).requests == [MountCall(MountProfile(p.form, p.bucket.value).value)]
              && MountProfile(p.form, p.bucket.value).value.profileName == Trim(p.form.profileName)
  {
  }

  /** What a mount request as written carries: the trimmed, non-blank
      profile name and the config password exactly as typed. */
  lemma MountRequestCarries(p: Page, encrypted: bool)
    ensures var r := ClickMount(p, encrypted);
            r.requests != [] ==>
              && r.requests[0].MountCall?
              && p.form.configPassword != "" && !AllWhitespace(p.form.profileName)
              && r.requests[0].profile.profileName == Trim(p.form.profileName)
              && r.requests[0].profile.configPassword == p.form.configPassword
  {
    MountRequestNeedsFields(p, encrypted);
  }

  /** As designed, a mount request needs every required field filled, and the
      password only when the configuration is encrypted. */
  lemma DesignedMountRequestNeedsFields(p: Page, encrypted: bool)
    ensures DesignedClickMount(p, encrypted).requests != [] ==>
              && MountProfile(p.form, p.bucket.value).Some?
              && DesignedClickMount(p, encrypted).requests == [MountCall(MountProfile(p.form, p.bucket.value).value)]
              && (encrypted ==> p.form.configPassword != "")
  {
  }

  /** The designed clicks differ from the clicks as written only when the
      password field is empty: then the code does nothing, and the design
      runs the action or opens the modal. */
  lemma ClicksAgreeWithPassword(p: Page, encrypted: bool)
    ensures p.form.configPassword != "" ==>
              ClickMount(p, encrypted) == DesignedClickMount(p, encrypted) &&
              ClickRefresh(p, encrypted) == DesignedClickRefresh(p, encrypted)
    ensures p.form.configPassword == "" && !encrypted ==>
              DesignedClickMount(p, encrypted) == HandleMount(p) && ClickMount(p, encrypted) == Reaction(p, [])
  {
  }

  /** A click on unmount (renderer.js:249): no gate and no validation; the
      main process is asked to unmount and the page is left to its events. */
  function ClickUnmount(p: Page): (r: Reaction)
    ensures r.page == p && r.requests == [UnmountCall]
  {
    Reaction(p, [UnmountCall])
  }

  // ---------------------------------------------------------------- events

  /** The renderer's listeners for what the main process sends
      (renderer.js:252-254): a status is logged, `mount-successful` sets
      `isMounted`, `mount-terminated` clears it; the renderer has no listener
      for anything else. */
  function Receive(p: Page, o: Supervisor.Output): (q: Page)
    ensures q.isMounted != p.isMounted ==>
              (o == Supervisor.MountSuccessful && q.isMounted) || (o == Supervisor.MountTerminated && !q.isMounted)
  {
    match o
    case Status(m) => p.(log := p.log + [Remote(m)])
    case MountSuccessful => p.(isMounted := true)
    case MountTerminated => p.(isMounted := false)
    case _ => p
  }

  /** The page after the renderer has received a batch of outputs, in order. */
  function ReceiveAll(p: Page, outs: seq<Supervisor.Output>): (q: Page)
    ensures q == p.(isMounted := q.isMounted, log := q.log)
    decreases |outs|
  {
    if |outs| == 0 then p else ReceiveAll(Receive(p, outs[0]), outs[1..])
  }

  /** The status messages of a batch as log lines. */
  function Remotes(ms: seq<Supervisor.Message>): (es: seq<Entry>)
    ensures |es| == |ms|
    ensures forall k :: 0 <= k < |ms| ==> es[k] == Remote(ms[k])
  {
    if |ms| == 0 then [] else [Remote(ms[0])] + Remotes(ms[1..])
  }

  /** The last mount lifecycle event of a batch: `Some(true)` for
      `mount-successful`, `Some(false)` for `mount-terminated`. */
  function LastLifecycle(outs: seq<Supervisor.Output>): Option<bool> {
    if |outs| == 0 then None
    else
      var o := outs[|outs| - 1];
      if o == Supervisor.MountSuccessful then Some(true)
      else if o == Supervisor.MountTerminated then Some(false)
      else LastLifecycle(outs[..|outs| - 1])
  }

  /** After a batch, `isMounted` is what the last lifecycle event said, or
      what it was if the batch had none. */
  lemma {:induction false} ReceiveAllFollowsLast(p: Page, outs: seq<Supervisor.Output>)
    ensures ReceiveAll(p, outs).isMounted == (match LastLifecycle(outs) case Some(b) => b case None => p.isMounted)
    decreases |outs|
  {
    if |outs| > 0 {
      var init, last := outs[..|outs| - 1], outs[|outs| - 1];
      assert outs == init + [last];
      ReceiveAllFollowsLast(p, init);
      ReceiveAllAppend(p, init, last);
    }
  }

  /** After a batch the log has grown by the batch's status messages, in order. */
  lemma {:induction false} ReceiveAllLogs(p: Page, outs: seq<Supervisor.Output>)
    ensures ReceiveAll(p, outs).log == p.log + Remotes(Supervisor.Messages(outs))
    decreases |outs|
  {
    if |outs| > 0 {
      var init, last := outs[..|outs| - 1], outs[|outs| - 1];
      assert outs == init + [last];
      ReceiveAllLogs(p, init);
      ReceiveAllAppend(p, init, last);
      ReceiveLogs(ReceiveAll(p, init), last);
      Supervisor.MessagesAppend(init, [last]);
      RemotesAppend(Supervisor.Messages(init), Supervisor.Messages([last]));
    }
  }

  lemma ReceiveLogs(p: Page, o: Supervisor.Output)
    ensures Receive(p, o).log == p.log + Remotes(Supervisor.Messages([o]))
  {
    assert [o][1..] == [];
  }

  lemma {:induction false} ReceiveAllAppend(p: Page, init: seq<Supervisor.Output>, last: Supervisor.Output)
    decreases |init|
    ensures ReceiveAll(p, init + [last]) == Receive(ReceiveAll(p, init), last)
  {
    if |init| > 0 {
      assert (init + [last])[1..] == init[1..] + [last];
      ReceiveAllAppend(Receive(p, init[0]), init[1..], last);
    }
  }

  lemma RemotesAppend(a: seq<Supervisor.Message>, b: seq<Supervisor.Message>)
    ensures Remotes(a + b) == Remotes(a) + Remotes(b)
  {
    var l := Remotes(a + b);
    assert forall k :: 0 <= k < |l| ==> l[k] == (Remotes(a) + Remotes(b))[k];
  }

  /** A batch that ends the mount and does not announce one leaves the
      renderer not mounted. */
  lemma TerminatedBatch(outs: seq<Supervisor.Output>)
    requires Supervisor.MountTerminated in outs && Supervisor.MountSuccessful !in outs
    ensures LastLifecycle(outs) == Some(false)
  {
    if |outs| > 0 && outs[|outs| - 1] != Supervisor.MountTerminated {
      assert outs == outs[..|outs| - 1] + [outs[|outs| - 1]];
      TerminatedBatch(outs[..|outs| - 1]);
    }
  }

  /** A batch that announces a mount and does not end one leaves the renderer
      mounted. */
  lemma AnnouncedBatch(outs: seq<Supervisor.Output>)
    requires Supervisor.MountSuccessful in outs && Supervisor.MountTerminated !in outs
    ensures LastLifecycle(outs) == Some(true)
  {
    if |outs| > 0 && outs[|outs| - 1] != Supervisor.MountSuccessful {
      assert outs == outs[..|outs| - 1] + [outs[|outs| - 1]];
      AnnouncedBatch(outs[..|outs| - 1]);
    }
  }

  // ---------------------------------------------------------------- start

  /** `initialize` (renderer.js:257-270): the probe's verdict, the loaded
      profiles, an empty selection and the form loaded from it. The mount
      button is offered exactly when the probe closed with code 0. */
  function Initialize(probe: BucketList.ProbeEnd, profiles: map<string, Stored>): (p: Page)
    ensures !p.isMounted && p.profiles == profiles && p.selected == ""
    ensures p.rcloneAvailable == BucketList.RcloneAvailable(probe)
    ensures !ButtonStates(p).mount <==> probe == BucketList.ProbeClosed(Code(0))
    ensures p.log == [Local(Starting), Local(if p.rcloneAvailable then RcloneFound else RcloneNotFound)]
  {
    var available := BucketList.RcloneAvailable(probe);
    var p0 := Page(map[], "", EmptyForm, Select([], ""), false, false, false, []);
    var p1 := Log(p0, Starting).(rcloneAvailable := available);
    var p2 := Log(p1, if available then RcloneFound else RcloneNotFound);
    LoadProfile(p2.(profiles := profiles))
  }
}

=== FILE: supervisor.dfy ===
/** The main process's mount supervisor (main.js): the `mount` and `unmount`
    IPC handlers, the window's `closed` handler, and every callback they
    register. Node runs all of them one at a time on its event loop, so the
    supervisor is a pure transition function `Step(state, event)` whose
    events are the callbacks the loop delivers and whose outputs are what
    the callbacks send or start.

    The lemmas beside each handler state one branch of that handler in closed
    form, as a reference for the proofs about runs; they check little beyond
    the handler's own body. The properties of the supervisor as a whole (the
    invariant every event keeps, the latch, the captured output, and the
    scenarios) are proved over runs in `SupervisorRuns`. */
module Supervisor {
  import opened Common
  import opened JsText

  /** The profile object the renderer sends with `mount` (main.js:188). */
  datatype Profile = Profile(
    profileName: string, endpoint: string, accessKey: string, secretKey: string,
    bucketName: string, mountPoint: string, configPassword: string)

  datatype Sig = SIGINT | SIGKILL | SIGTERM

  /** What the synchronous `existsSync` / `mkdirSync` block found (main.js:202-210). */
  datatype DirOutcome = DirExists | DirCreated | DirFailed(message: string)

  /** A mount child that has not closed yet: what its stdout and stderr
      listeners have accumulated, Node's `killed` flag, the remote path its
      callbacks closed over, and the grace timers of the `unmount` calls whose
      `close` listeners wait on it, in registration order. */
  datatype Proc = Proc(stdout: string, stderr: string, killed: bool, remotePath: string, waiters: seq<nat>)

  /** The supervisor's whole state. `held` is the global `rcloneProcess`,
      `userUnmount` the global `unmountInitiatedByUser`; the rest are the
      children and timers whose callbacks can still run. Children and timers
      draw their identities from one counter, `next`. */
  datatype State = State(
    held: Option<nat>,
    userUnmount: bool,
    helpers: map<nat, Profile>,
    procs: map<nat, Proc>,
    confirms: map<nat, string>,
    graces: set<nat>,
    logFile: string,
    next: nat)

  /** The callbacks the event loop can deliver. */
  datatype Event =
    | MountReq(profile: Profile)
    | ConfigClose(helper: nat, code: ExitCode, dir: DirOutcome)
    | ProcError(proc: nat, message: string)
    | Stdout(proc: nat, chunk: string)
    | Stderr(proc: nat, chunk: string)
    | ProcClose(proc: nat, code: ExitCode)
    | ConfirmFire(timer: nat)
    | UnmountReq
    | GraceFire(timer: nat)
    | WindowClosed

  /** The status messages the supervisor sends (`sendStatus`), by the line
      that sends each; `Text` renders the exact string and `Severity` the
      `type` tag the code gives it. */
  datatype Message =
    | CreatingConfig(profileName: string)
    | ConfigFailed
    | ConfigCreated
    | MountPointCreated
    | MountPointFailed(error: string)
    | Attempting(remote: string)
    | StartFailed(error: string)
    | TerminatedByUser
    | ProcessFailed(code: ExitCode, output: string)
    | Mounted(remote: string)
    | AlreadyActive
    | NothingMounted
    | Unmounting
  {
    function Text(): string {
      match this
      case CreatingConfig(name) => "Creating rclone config for profile: " + name + "..."
      case ConfigFailed => "rclone config creation failed."
      case ConfigCreated => "rclone configuration created successfully."
      case MountPointCreated => "Created mount point directory."
      case MountPointFailed(error) => "Failed to create mount point: " + error
      case Attempting(remote) => "Attempting to mount '" + remote + "'..."
      case StartFailed(error) => "Failed to start rclone: " + error
      case TerminatedByUser => "Mount terminated by user."
      case ProcessFailed(code, output) => "Mount process failed with exit code " + code.Text() + ". Output:\n" + output
      case Mounted(remote) => "Successfully mounted '" + remote + "'."
      case AlreadyActive => "A mount is already active. Please unmount first."
      case NothingMounted => "No active mount to unmount."
      case Unmounting => "Unmounting filesystem..."
    }

    function Severity(): Severity {
      match this
      case CreatingConfig(_) => Info
      case ConfigFailed => Error
      case ConfigCreated => Success
      case MountPointCreated => Success
      case MountPointFailed(_) => Error
      case Attempting(_) => Info
      case StartFailed(_) => Error
      case TerminatedByUser => Success
      case ProcessFailed(_, _) => Error
      case Mounted(_) => Success
      case AlreadyActive => Error
      case NothingMounted => Warn
      case Unmounting => Info
    }

    /** The `status-update` payload. */
    function ToReport(): Report {
      Report(Text(), Severity())
    }
  }

  /** The value the `unmount` handler resolves with. */
  datatype UnmountReply = Unmounted | NotMounted(message: string)

  /** What a callback sends to the renderer, starts, or signals. */
  datatype Output =
    | Status(message: Message)
    | MountSuccessful
    | MountTerminated
    | SpawnHelper(helper: nat, args: seq<string>, configPass: string)
    | SpawnMount(proc: nat, args: seq<string>, configPass: string)
    | Kill(proc: nat, signal: Sig)
    | SetTimer(timer: nat, delayMs: nat)
    | ClearTimer(timer: nat)
    | Reply(reply: UnmountReply)

  datatype Transition = Transition(state: State, outputs: seq<Output>)

  const ConfirmDelayMs: nat := 2500
  const GracePeriodMs: nat := 3000
  const NoOutput := "No output captured."

  function Init(logFile: string): (s: State)
    ensures Inv(s) && s.held.None? && !s.userUnmount
  {
    State(None, false, map[], map[], map[], {}, logFile, 0)
  }

  /** Every child and timer id is below `next`, and a held child has not closed. */
  ghost predicate Inv(s: State) {
    && (s.held.Some? ==> s.held.value in s.procs)
    && (forall id :: id in s.helpers ==> id < s.next)
    && (forall id :: id in s.procs ==> id < s.next)
    && (forall id :: id in s.confirms ==> id < s.next)
    && (forall id :: id in s.graces ==> id < s.next)
  }

  /** `rclone config create <name> s3 ...` (main.js:191): the credentials are
      passed as arguments. */
  function ConfigArgs(p: Profile): seq<string> {
    ["config", "create", p.profileName, "s3", "provider", "Ceph", "env_auth", "false",
     "endpoint", p.endpoint, "access_key_id", p.accessKey, "secret_access_key", p.secretKey]
  }

  function RemotePath(p: Profile): string {
    p.profileName + ":" + p.bucketName
  }

  /** `rclone mount <remote> <dir> ...` (main.js:214). */
  function MountArgs(remote: string, mountPoint: string, logFile: string): seq<string> {
    ["mount", remote, mountPoint, "--vfs-cache-mode", "full", "--log-level", "DEBUG", "--log-file", logFile]
  }

  /** The captured output a failure report shows: the trimmed concatenation
      of everything read from stdout followed by everything read from stderr,
      or a fixed notice when that is blank. */
  function Diagnosis(stdout: string, stderr: string): (d: string)
    ensures AllWhitespace(stdout + stderr) ==> d == NoOutput
    ensures !AllWhitespace(stdout + stderr) ==> d != "" && IsTrimOf(d, stdout + stderr)
  {
    TrimEmptyIffBlank(stdout + stderr);
    TrimIsTrimOf(stdout + stderr);
    var combined := Trim(stdout + stderr);
    if combined == "" then NoOutput else combined
  }

  /** The report of a mount child that closed without the latch set. */
  function FailureMessage(code: ExitCode, stdout: string, stderr: string): Message {
    ProcessFailed(code, Diagnosis(stdout, stderr))
  }

  /** `Node`'s `kill()` on a live child sets its `killed` flag. */
  function MarkKilled(procs: map<nat, Proc>, id: nat): (r: map<nat, Proc>)
    ensures r.Keys == procs.Keys
    ensures id in procs ==> r[id] == procs[id].(killed := true)
    ensures forall k :: k in procs && k != id ==> r[k] == procs[k]
  {
    if id in procs then procs[id := procs[id].(killed := true)] else procs
  }

  predicate Killed(s: State, id: nat) {
    id in s.procs && s.procs[id].killed
  }

  /** Status messages among the outputs, in order. */
  function Messages(outs: seq<Output>): (ms: seq<Message>)
    ensures |ms| <= |outs|
  {
    if |outs| == 0 then []
    else (if outs[0].Status? then [outs[0].message] else []) + Messages(outs[1..])
  }

  /** The `close` listeners an `unmount` call registered: each clears its
      grace timer and resolves with success. */
  function WaiterOutputs(waiters: seq<nat>): (outs: seq<Output>)
    ensures |outs| == 2 * |waiters|
    ensures multiset(outs)[Reply(Unmounted)] == |waiters|
    ensures forall g :: g in waiters ==> ClearTimer(g) in outs
    ensures forall o :: o in outs ==> o.ClearTimer? || o == Reply(Unmounted)
  {
    if |waiters| == 0 then []
    else [ClearTimer(waiters[0]), Reply(Unmounted)] + WaiterOutputs(waiters[1..])
  }

  /** The `mount` handler (main.js:181-194). */
  function OnMount(s: State, p: Profile): Transition {
    if s.held.Some? then Transition(s, [Status(AlreadyActive)])
    else
      Transition(
        s.(userUnmount := false, helpers := s.helpers[s.next := p], next := s.next + 1),
        [Status(CreatingConfig(p.profileName)),
         SpawnHelper(s.next, ConfigArgs(p), p.configPassword)])
  }

  /** While a child is held, a mount request changes nothing and reports an
      error; otherwise it clears the latch and starts a config helper under a
      fresh id, with the profile's credentials as arguments and its password
      for the environment, and touches nothing else. Closed form of both
      branches of `OnMount`. */
  lemma MountGuard(s: State, p: Profile)
    requires Inv(s)
    ensures var t := OnMount(s, p);
            s.held.Some? ==> t.state == s && t.outputs == [Status(AlreadyActive)]
    ensures var t := OnMount(s, p);
            s.held.None? ==>
              && !t.state.userUnmount && s.next !in s.helpers
              && t.state == s.(userUnmount := false, helpers := s.helpers[s.next := p], next := s.next + 1)
              && t.outputs == [Status(CreatingConfig(p.profileName)), SpawnHelper(s.next, ConfigArgs(p), p.configPassword)]
  {
  }

  /** The config helper's `close` callback, with the mount-point check and the
      spawn of the mount child it runs synchronously (main.js:195-245). */
  function OnConfigClose(s: State, h: nat, code: ExitCode, dir: DirOutcome): Transition {
    if h !in s.helpers then Transition(s, [])
    else
      var p := s.helpers[h];
      var s1 := s.(helpers := s.helpers - {h});
      if code.Failed() then
        Transition(s1, [Status(ConfigFailed)])
      else
        var created := [Status(ConfigCreated)];
        match dir
        case DirFailed(message) =>
          Transition(s1, created + [Status(MountPointFailed(message))])
        case _ =>
          var made := if dir == DirCreated then [Status(MountPointCreated)] else [];
          var remote := RemotePath(p);
          var id := s.next;
          Transition(
            s1.(held := Some(id),
                procs := s.procs[id := Proc("", "", false, remote, [])],
                confirms := s.confirms[id + 1 := remote],
                next := s.next + 2),
            created + made +
            [Status(Attempting(remote)),
             SpawnMount(id, MountArgs(remote, p.mountPoint, s.logFile), p.configPassword),
             SetTimer(id + 1, ConfirmDelayMs)])
  }

  /** A helper that fails, or whose mount point cannot be made, only retires
      the helper; the statuses end with exactly one error, and nothing is
      spawned or armed. */
  lemma ConfigCloseFails(s: State, h: nat, code: ExitCode, dir: DirOutcome)
    requires h in s.helpers && (code.Failed() || dir.DirFailed?)
    ensures var t := OnConfigClose(s, h, code, dir);
            && t.state == s.(helpers := s.helpers - {h})
            && |t.outputs| > 0 && (forall o :: o in t.outputs ==> o.Status?)
            && t.outputs[|t.outputs| - 1].message.Severity() == Error
            && (forall k :: 0 <= k < |t.outputs| - 1 ==> t.outputs[k].message.Severity() != Error)
            && (code.Failed() ==> Messages(t.outputs) == [ConfigFailed])
  {
  }

  /** A helper that succeeds with the mount point in place spawns the mount
      child under a fresh id, holds it, and arms its confirmation timer, which
      remembers the remote; nothing else changes. Closed form of the success
      branch of `OnConfigClose`. */
  lemma ConfigCloseStarts(s: State, h: nat, code: ExitCode, dir: DirOutcome)
    requires Inv(s) && h in s.helpers && !code.Failed() && !dir.DirFailed?
    ensures var t := OnConfigClose(s, h, code, dir);
            && s.next !in s.procs && s.next + 1 !in s.confirms
            && t.state == s.(helpers := s.helpers - {h},
                             held := Some(s.next),
                             procs := s.procs[s.next := Proc("", "", false, RemotePath(s.helpers[h]), [])],
                             confirms := s.confirms[s.next + 1 := RemotePath(s.helpers[h])],
                             next := s.next + 2)
  {
  }

  /** The statuses of a helper that succeeded: "created", then "created
      mount point" when the directory was made, then "attempting"; and the
      mount child is spawned and the confirmation timer armed. */
  lemma ConfigCloseAnnounces(s: State, h: nat, code: ExitCode, dir: DirOutcome)
    requires h in s.helpers && !code.Failed() && !dir.DirFailed?
    ensures var p := s.helpers[h];
            var remote := RemotePath(p);
            var t := OnConfigClose(s, h, code, dir);
            && Messages(t.outputs) == [ConfigCreated] + (if dir == DirCreated then [MountPointCreated] else []) + [Attempting(remote)]
            && SpawnMount(s.next, MountArgs(remote, p.mountPoint, s.logFile), p.configPassword) in t.outputs
            && SetTimer(s.next + 1, ConfirmDelayMs) in t.outputs
  {
    var p := s.helpers[h];
    var remote := RemotePath(p);
    var made := if dir == DirCreated then [Status(MountPointCreated)] else [];
    var tail := [Status(Attempting(remote)),
                 SpawnMount(s.next, MountArgs(remote, p.mountPoint, s.logFile), p.configPassword),
                 SetTimer(s.next + 1, ConfirmDelayMs)];
    assert Messages(tail) == [Attempting(remote)] by {
      NoMessages(tail[1..]);
    }
    MessagesAppend([Status(ConfigCreated)] + made, tail);
    MessagesAppend([Status(ConfigCreated)], made);
  }


  /** The mount child's `error` listener (main.js:223-227). */
  function OnProcError(s: State, p: nat, message: string): Transition {
    if p !in s.procs then Transition(s, [])
    else Transition(s.(held := None), [Status(StartFailed(message)), MountTerminated])
  }

  /** A spawn error of a live child reports it, tells the renderer the mount
      is over, and drops the held reference, whichever child was held. Closed
      form of `OnProcError`. */
  lemma ProcErrorReleases(s: State, p: nat, message: string)
    requires p in s.procs
    ensures var t := OnProcError(s, p, message);
            && t.state == s.(held := None)
            && t.outputs == [Status(StartFailed(message)), MountTerminated]
  {
  }

  /** The mount child's stdout and stderr listeners (main.js:220-221). */
  function OnOutput(s: State, p: nat, chunk: string, isStderr: bool): Transition {
    if p !in s.procs then Transition(s, [])
    else
      var proc := s.procs[p];
      var proc' := if isStderr then proc.(stderr := proc.stderr + chunk) else proc.(stdout := proc.stdout + chunk);
      Transition(s.(procs := s.procs[p := proc']), [])
  }

  /** A chunk of output is appended to its child's buffer for that stream and
      nothing else changes or is sent. Closed form of `OnOutput`. */
  lemma OutputAppends(s: State, p: nat, chunk: string, isStderr: bool)
    requires p in s.procs
    ensures var t := OnOutput(s, p, chunk, isStderr);
            && t.outputs == []
            && t.state == s.(procs := s.procs[p := t.state.procs[p]])
            && (isStderr ==> t.state.procs[p] == s.procs[p].(stderr := s.procs[p].stderr + chunk))
            && (!isStderr ==> t.state.procs[p] == s.procs[p].(stdout := s.procs[p].stdout + chunk))
  {
  }

  /** The mount child's `close` listeners: first the one the mount installed
      (main.js:229-238), then those of every `unmount` call (main.js:173-177). */
  function OnProcClose(s: State, p: nat, code: ExitCode): Transition {
    if p !in s.procs then Transition(s, [])
    else
      var proc := s.procs[p];
      var report := if s.userUnmount then TerminatedByUser else FailureMessage(code, proc.stdout, proc.stderr);
      Transition(
        s.(held := None, procs := s.procs - {p}, graces := s.graces - set g | g in proc.waiters),
        [Status(report), MountTerminated] + WaiterOutputs(proc.waiters))
  }

  /** The report a closing child gets: "terminated by user" exactly when the
      latch is set, else the failure report with its exit code and output. */
  function CloseReport(s: State, p: nat, code: ExitCode): Message
    requires p in s.procs
  {
    if s.userUnmount then TerminatedByUser else FailureMessage(code, s.procs[p].stdout, s.procs[p].stderr)
  }

  /** A close forgets the child and drops the held reference, whichever child
      was held, and leaves the latch as it was. */
  lemma CloseReleases(s: State, p: nat, code: ExitCode)
    requires p in s.procs
    ensures var t := OnProcClose(s, p, code);
            && t.state == s.(held := None, procs := s.procs - {p}, graces := t.state.graces)
            && (forall g :: g in s.graces && g !in s.procs[p].waiters ==> g in t.state.graces)
            && (forall g :: g in s.procs[p].waiters ==> g !in t.state.graces)
            && t.state.graces <= s.graces
  {
  }

  /** A close sends exactly one status, first, then `mount-terminated`, and
      never a signal, a success notice or a spawn. */
  lemma CloseReports(s: State, p: nat, code: ExitCode)
    requires p in s.procs
    ensures var t := OnProcClose(s, p, code);
            && Messages(t.outputs) == [CloseReport(s, p, code)]
            && |t.outputs| >= 2 && t.outputs[0] == Status(CloseReport(s, p, code)) && t.outputs[1] == MountTerminated
            && multiset(t.outputs)[MountTerminated] == 1
            && (forall o :: o in t.outputs ==> !o.Kill? && !o.MountSuccessful? && !o.SpawnMount?)
  {
    CloseMessages(CloseReport(s, p, code), s.procs[p].waiters);
    CloseCounts(CloseReport(s, p, code), s.procs[p].waiters);
  }

  /** A close resolves every `unmount` call waiting on the child, each once,
      and clears each one's grace timer. */
  lemma CloseResolvesWaiters(s: State, p: nat, code: ExitCode)
    requires p in s.procs
    ensures var t := OnProcClose(s, p, code);
            && multiset(t.outputs)[Reply(Unmounted)] == |s.procs[p].waiters|
            && (forall g :: g in s.procs[p].waiters ==> ClearTimer(g) in t.outputs)
  {
    CloseCounts(CloseReport(s, p, code), s.procs[p].waiters);
    CloseClears(CloseReport(s, p, code), s.procs[p].waiters);
  }

  lemma CloseMessages(report: Message, waiters: seq<nat>)
    ensures Messages([Status(report), MountTerminated] + WaiterOutputs(waiters)) == [report]
  {
    var waiting := WaiterOutputs(waiters);
    var head := [Status(report), MountTerminated];
    NoMessages(waiting);
    MessagesAppend(head, waiting);
    assert Messages(head) == [report] by {
      assert head[1..] == [MountTerminated];
      assert Messages([MountTerminated]) == [];
    }
  }

  lemma CloseCounts(report: Message, waiters: seq<nat>)
    ensures var outs := [Status(report), MountTerminated] + WaiterOutputs(waiters);
            && multiset(outs)[MountTerminated] == 1
            && multiset(outs)[Reply(Unmounted)] == |waiters|
            && (forall o :: o in outs ==> !o.Kill? && !o.MountSuccessful? && !o.SpawnMount?)
  {
    var waiting := WaiterOutputs(waiters);
    var head := [Status(report), MountTerminated];
    var m := multiset(head) + multiset(waiting);
    assert multiset(head + waiting) == m;
    assert multiset(head) == multiset{Status(report), MountTerminated};
    assert multiset(waiting)[MountTerminated] == 0 by {
      assert MountTerminated !in waiting;
    }
    CloseKinds(report, waiters);
  }

  lemma CloseKinds(report: Message, waiters: seq<nat>)
    ensures forall o :: o in [Status(report), MountTerminated] + WaiterOutputs(waiters) ==>
              !o.Kill? && !o.MountSuccessful? && !o.SpawnMount?
  {
  }

  lemma CloseClears(report: Message, waiters: seq<nat>)
    ensures forall g :: g in waiters ==> ClearTimer(g) in [Status(report), MountTerminated] + WaiterOutputs(waiters)
  {
    var waiting := WaiterOutputs(waiters);
    forall g | g in waiters
      ensures ClearTimer(g) in [Status(report), MountTerminated] + waiting
    {
      assert ClearTimer(g) in waiting;
    }
  }

  lemma {:induction false} NoMessages(outs: seq<Output>)
    requires forall o :: o in outs ==> !o.Status?
    ensures Messages(outs) == []
  {
    if |outs| > 0 {
      NoMessages(outs[1..]);
    }
  }

  lemma {:induction false} MessagesAppend(a: seq<Output>, b: seq<Output>)
    ensures Messages(a + b) == Messages(a) + Messages(b)
  {
    if |a| > 0 {
      MessagesAppend(a[1..], b);
      assert (a + b)[0] == a[0];
      assert (a + b)[1..] == a[1..] + b;
      assert Messages(a + b) == (if a[0].Status? then [a[0].message] else []) + Messages(a[1..] + b);
    } else {
      assert a + b == b;
    }
  }

  /** The 2500 ms confirmation timer (main.js:240-245): it announces success
      when some child is held and `kill()` has not been called on it, whichever
      mount started the timer. */
  function OnConfirm(s: State, timer: nat): Transition {
    if timer !in s.confirms then Transition(s, [])
    else
      var s1 := s.(confirms := s.confirms - {timer});
      if s.held.Some? && !Killed(s, s.held.value) then
        Transition(s1, [Status(Mounted(s.confirms[timer])), MountSuccessful])
      else Transition(s1, [])
  }

  /** A pending confirmation timer retires itself and announces success, with
      the remote it was armed for, exactly when a child is held that has not
      been sent a signal; it sends nothing else. */
  lemma ConfirmAnnounces(s: State, timer: nat)
    requires timer in s.confirms
    ensures var t := OnConfirm(s, timer);
            && t.state == s.(confirms := s.confirms - {timer})
            && (MountSuccessful in t.outputs <==> s.held.Some? && !Killed(s, s.held.value))
            && (MountSuccessful in t.outputs ==> t.outputs == [Status(Mounted(s.confirms[timer])), MountSuccessful])
            && (MountSuccessful !in t.outputs ==> t.outputs == [])
  {
  }

  /** The `unmount` handler (main.js:158-178) up to the point where it waits. */
  function OnUnmount(s: State): Transition {
    if s.held.None? then
      Transition(s, [Status(NothingMounted), Reply(NotMounted("Not mounted"))])
    else
      var q := s.held.value;
      var g := s.next;
      var procs := MarkKilled(s.procs, q);
      var procs' := if q in procs then procs[q := procs[q].(waiters := procs[q].waiters + [g])] else procs;
      Transition(
        s.(userUnmount := true, procs := procs', graces := s.graces + {g}, next := s.next + 1),
        [Status(Unmounting), Kill(q, SIGINT), SetTimer(g, GracePeriodMs)])
  }

  /** With nothing held, `unmount` changes nothing, warns, and answers
      "Not mounted" at once. Closed form of the idle branch of `OnUnmount`. */
  lemma UnmountWhenIdle(s: State)
    requires s.held.None?
    ensures OnUnmount(s).state == s
    ensures OnUnmount(s).outputs == [Status(NothingMounted), Reply(NotMounted("Not mounted"))]
  {
  }

  /** With a child held, `unmount` sets the latch, sends it SIGINT, arms a
      fresh grace timer and registers itself as a waiter on the child; it does
      not answer yet. Closed form of the held branch of `OnUnmount`. */
  lemma UnmountWhenHeld(s: State)
    requires Inv(s) && s.held.Some?
    ensures var q := s.held.value;
            var t := OnUnmount(s);
            && t.outputs == [Status(Unmounting), Kill(q, SIGINT), SetTimer(s.next, GracePeriodMs)]
            && s.next !in s.graces
            && t.state == s.(userUnmount := true, procs := t.state.procs, graces := s.graces + {s.next}, next := s.next + 1)
            && t.state.procs == s.procs[q := s.procs[q].(killed := true, waiters := s.procs[q].waiters + [s.next])]
  {
  }

  /** The 3000 ms grace timer (main.js:168-172): it sends SIGKILL to whatever
      child is held when it fires. */
  function OnGrace(s: State, timer: nat): Transition {
    if timer !in s.graces then Transition(s, [])
    else
      var s1 := s.(graces := s.graces - {timer});
      if s.held.Some? then
        Transition(s1.(procs := MarkKilled(s.procs, s.held.value)), [Kill(s.held.value, SIGKILL)])
      else Transition(s1, [])
  }

  /** A pending grace timer retires itself and sends SIGKILL to the child held
      when it fires, if any; a cleared one does nothing. Closed form of
      `OnGrace`. */
  lemma GraceEscalates(s: State, timer: nat)
    ensures var t := OnGrace(s, timer);
            timer !in s.graces ==> t == Transition(s, [])
    ensures var t := OnGrace(s, timer);
            timer in s.graces ==>
              && t.state == s.(graces := s.graces - {timer}, procs := t.state.procs)
              && t.state.procs.Keys == s.procs.Keys
              && (s.held.Some? ==> t.outputs == [Kill(s.held.value, SIGKILL)])
              && (s.held.None? ==> t.outputs == [])
  {
  }

  /** The window's `closed` handler (main.js:42-49): a default `kill()`
      (SIGTERM) of the held child, which is then forgotten. */
  function OnWindowClosed(s: State): Transition {
    if s.held.None? then Transition(s, [])
    else
      var q := s.held.value;
      Transition(s.(userUnmount := true, procs := MarkKilled(s.procs, q), held := None), [Kill(q, SIGTERM)])
  }

  /** Closing the window sets the latch, sends SIGTERM to the held child and
      forgets it; with nothing held it does nothing. */
  lemma WindowCloseKills(s: State)
    ensures var t := OnWindowClosed(s);
            t.state.held.None?
    ensures var t := OnWindowClosed(s);
            s.held.None? ==> t == Transition(s, [])
    ensures var t := OnWindowClosed(s);
            s.held.Some? ==> t.state.userUnmount && t.outputs == [Kill(s.held.value, SIGTERM)]
  {
  }

  /** One turn of the event loop. */
  function Step(s: State, e: Event): Transition {
    match e
    case MountReq(p) => OnMount(s, p)
    case ConfigClose(h, code, dir) => OnConfigClose(s, h, code, dir)
    case ProcError(p, message) => OnProcError(s, p, message)
    case Stdout(p, chunk) => OnOutput(s, p, chunk, false)
    case Stderr(p, chunk) => OnOutput(s, p, chunk, true)
    case ProcClose(p, code) => OnProcClose(s, p, code)
    case ConfirmFire(timer) => OnConfirm(s, timer)
    case UnmountReq => OnUnmount(s)
    case GraceFire(timer) => OnGrace(s, timer)
    case WindowClosed => OnWindowClosed(s)
  }

  /** The event loop: a sequence of turns of `step`, each starting from the
      state the previous one left; the outputs are concatenated in order. */
  function RunWith(step: (State, Event) -> Transition, s: State, events: seq<Event>): Transition
    decreases |events|
  {
    if |events| == 0 then Transition(s, [])
    else
      var first := step(s, events[0]);
      var rest := RunWith(step, first.state, events[1..]);
      Transition(rest.state, first.outputs + rest.outputs)
  }

  /** The supervisor's event loop. */
  function Run(s: State, events: seq<Event>): Transition {
    RunWith(Step, s, events)
  }
}

=== FILE: supervisor_runs.dfy ===
/** Properties of whole runs of the mount supervisor: the invariant every
    turn keeps, how the shutdown latch moves, what the failure report is made
    of, and where some particular event orders lead. */
module SupervisorRuns {
  import opened Common
  import opened Supervisor

  /** Every turn of the event loop keeps ids fresh and the held child live. */
  lemma StepPreservesInv(s: State, e: Event)
    requires Inv(s)
    ensures Inv(Step(s, e).state)
  {
    match e
    case MountReq(p) => assert Inv(OnMount(s, p).state);
    case ConfigClose(h, code, dir) => ConfigCloseInv(s, h, code, dir);
    case ProcError(p, message) => assert Inv(OnProcError(s, p, message).state);
    case Stdout(p, chunk) => assert Inv(OnOutput(s, p, chunk, false).state);
    case Stderr(p, chunk) => assert Inv(OnOutput(s, p, chunk, true).state);
    case ProcClose(p, code) => ProcCloseInv(s, p, code);
    case ConfirmFire(timer) => assert Inv(OnConfirm(s, timer).state);
    case UnmountReq => UnmountInv(s);
    case GraceFire(timer) => assert Inv(OnGrace(s, timer).state);
    case WindowClosed => assert Inv(OnWindowClosed(s).state);
  }

  lemma ConfigCloseInv(s: State, h: nat, code: ExitCode, dir: DirOutcome)
    requires Inv(s)
    ensures Inv(OnConfigClose(s, h, code, dir).state)
  {
  }

  lemma MountInv(s: State, p: Profile)
    requires Inv(s)
    ensures Inv(OnMount(s, p).state)
  {
  }

  lemma ProcCloseInv(s: State, p: nat, code: ExitCode)
    requires Inv(s)
    ensures Inv(OnProcClose(s, p, code).state)
  {
  }

  lemma UnmountInv(s: State)
    requires Inv(s)
    ensures Inv(OnUnmount(s).state)
  {
  }

  lemma {:induction false} RunPreservesInv(s: State, events: seq<Event>)
    requires Inv(s)
    ensures Inv(Run(s, events).state)
    decreases |events|
  {
    if |events| > 0 {
      StepPreservesInv(s, events[0]);
      RunPreservesInv(Step(s, events[0]).state, events[1..]);
    }
  }

  /** The latch `unmountInitiatedByUser` is set only by an unmount or a window
      close that find a child held, and cleared only by an accepted mount
      request; no other callback touches it (main.js:45, 166, 187). */
  lemma LatchMoves(s: State, e: Event)
    ensures var after := Step(s, e).state.userUnmount;
            && (!s.userUnmount && after <==> !s.userUnmount && s.held.Some? && (e.UnmountReq? || e.WindowClosed?))
            && (s.userUnmount && !after <==> s.userUnmount && s.held.None? && e.MountReq?)
  {
  }

  /** Once set, the latch stays set through any events that include no mount
      request: a close does not reset it. */
  lemma {:induction false} LatchSticksUntilMount(s: State, events: seq<Event>)
    requires s.userUnmount
    requires forall k :: 0 <= k < |events| ==> !events[k].MountReq?
    ensures Run(s, events).state.userUnmount
    decreases |events|
  {
    if |events| > 0 {
      LatchMoves(s, events[0]);
      LatchSticksUntilMount(Step(s, events[0]).state, events[1..]);
    }
  }

  /** What one event delivers on the stdout (or stderr) of child `p`. */
  function Chunk(e: Event, p: nat, isStderr: bool): string {
    if isStderr && e.Stderr? && e.proc == p then e.chunk
    else if !isStderr && e.Stdout? && e.proc == p then e.chunk
    else ""
  }

  /** Everything the events deliver on one stream of child `p`, in order. */
  function StreamOf(events: seq<Event>, p: nat, isStderr: bool): string {
    if |events| == 0 then "" else Chunk(events[0], p, isStderr) + StreamOf(events[1..], p, isStderr)
  }

  /** The buffer a child keeps for one of its streams. */
  function Buffer(proc: Proc, isStderr: bool): string {
    if isStderr then proc.stderr else proc.stdout
  }

  predicate Closes(e: Event, p: nat) {
    e.ProcClose? && e.proc == p
  }

  /** One turn leaves a live child's buffers alone unless it delivers a chunk
      of that child's output, which it appends to the matching buffer; ids
      only grow, so the child's id stays below `next`. */
  lemma StepBuffers(s: State, e: Event, p: nat, isStderr: bool)
    requires p in s.procs && p < s.next && !Closes(e, p)
    ensures var s1 := Step(s, e).state;
            && p in s1.procs && p < s1.next
            && Buffer(s1.procs[p], isStderr) == Buffer(s.procs[p], isStderr) + Chunk(e, p, isStderr)
  {
    if e.Stdout? || e.Stderr? {
      OutputBuffers(s, e, p, isStderr);
    } else if e.ProcClose? {
      CloseBuffers(s, e, p);
    } else if e.ConfigClose? {
      ConfigCloseBuffers(s, e, p);
    } else if e.UnmountReq? {
      UnmountBuffers(s, p);
    } else {
      QuietBuffers(s, e, p);
    }
  }

  lemma OutputBuffers(s: State, e: Event, p: nat, isStderr: bool)
    requires p in s.procs && (e.Stdout? || e.Stderr?)
    ensures var s1 := Step(s, e).state;
            && p in s1.procs && s1.next == s.next
            && Buffer(s1.procs[p], isStderr) == Buffer(s.procs[p], isStderr) + Chunk(e, p, isStderr)
  {
  }

  lemma CloseBuffers(s: State, e: Event, p: nat)
    requires p in s.procs && e.ProcClose? && e.proc != p
    ensures var s1 := Step(s, e).state;
            p in s1.procs && s1.procs[p] == s.procs[p] && s1.next == s.next
  {
  }

  lemma ConfigCloseBuffers(s: State, e: Event, p: nat)
    requires p in s.procs && p < s.next && e.ConfigClose?
    ensures var s1 := Step(s, e).state;
            p in s1.procs && s1.procs[p] == s.procs[p] && s1.next >= s.next
  {
  }

  lemma UnmountBuffers(s: State, p: nat)
    requires p in s.procs
    ensures var s1 := OnUnmount(s).state;
            && p in s1.procs && s1.next >= s.next
            && s1.procs[p].stdout == s.procs[p].stdout && s1.procs[p].stderr == s.procs[p].stderr
  {
  }

  lemma QuietBuffers(s: State, e: Event, p: nat)
    requires p in s.procs && (e.MountReq? || e.ProcError? || e.ConfirmFire? || e.GraceFire? || e.WindowClosed?)
    ensures var s1 := Step(s, e).state;
            && p in s1.procs && s1.next >= s.next
            && s1.procs[p].stdout == s.procs[p].stdout && s1.procs[p].stderr == s.procs[p].stderr
  {
  }

  /** A live child's buffers hold exactly what arrived on each stream, each in
      its own arrival order, however the two streams interleaved. */
  lemma {:induction false} BuffersAccumulate(s: State, events: seq<Event>, p: nat, isStderr: bool)
    requires p in s.procs && p < s.next
    requires forall k :: 0 <= k < |events| ==> !Closes(events[k], p)
    ensures p in Run(s, events).state.procs
    ensures Buffer(Run(s, events).state.procs[p], isStderr) == Buffer(s.procs[p], isStderr) + StreamOf(events, p, isStderr)
    decreases |events|
  {
    if |events| > 0 {
      StepBuffers(s, events[0], p, isStderr);
      BuffersAccumulate(Step(s, events[0]).state, events[1..], p, isStderr);
      RunState(s, events);
    }
  }

  /** When a freshly spawned child closes without the latch set, the failure
      report shows all of its stdout followed by all of its stderr, not the
      order in which the chunks arrived (main.js:216-221, 233-234). */
  lemma CloseReportsCapturedStreams(s: State, events: seq<Event>, p: nat, code: ExitCode)
    requires p in s.procs && p < s.next && s.procs[p].stdout == "" && s.procs[p].stderr == ""
    requires forall k :: 0 <= k < |events| ==> !Closes(events[k], p)
    requires !Run(s, events).state.userUnmount
    ensures Messages(Step(Run(s, events).state, ProcClose(p, code)).outputs)
            == [ProcessFailed(code, Diagnosis(StreamOf(events, p, false), StreamOf(events, p, true)))]
  {
    var st := Run(s, events).state;
    CapturedStreams(s, events, p);
    StepClose(st, p, code);
    CloseReports(st, p, code);
  }

  /** What a child's buffers hold after a run in which it did not close,
      starting from empty buffers. */
  lemma CapturedStreams(s: State, events: seq<Event>, p: nat)
    requires p in s.procs && p < s.next && s.procs[p].stdout == "" && s.procs[p].stderr == ""
    requires forall k :: 0 <= k < |events| ==> !Closes(events[k], p)
    ensures var st := Run(s, events).state;
            && p in st.procs
            && st.procs[p].stdout == StreamOf(events, p, false)
            && st.procs[p].stderr == StreamOf(events, p, true)
  {
    var out := StreamOf(events, p, false);
    var err := StreamOf(events, p, true);
    BuffersAccumulate(s, events, p, false);
    BuffersAccumulate(s, events, p, true);
    assert "" + out == out;
    assert "" + err == err;
  }

  lemma StepClose(s: State, p: nat, code: ExitCode)
    ensures Step(s, ProcClose(p, code)) == OnProcClose(s, p, code)
  {
  }

  /** Running a single event is taking its step. */
  lemma RunOne(step: (State, Event) -> Transition, s: State, e: Event)
    ensures RunWith(step, s, [e]) == step(s, e)
  {
    assert [e][1..] == [];
    assert step(s, e).outputs + [] == step(s, e).outputs;
  }

  /** Running `a + b` is running `a`, then running `b` from where `a` ended;
      the outputs are those of `a` followed by those of `b`. */
  lemma {:induction false} RunAppend(step: (State, Event) -> Transition, s: State, a: seq<Event>, b: seq<Event>)
    ensures RunWith(step, s, a + b).state == RunWith(step, RunWith(step, s, a).state, b).state
    ensures RunWith(step, s, a + b).outputs == RunWith(step, s, a).outputs + RunWith(step, RunWith(step, s, a).state, b).outputs
    decreases |a|
  {
    if |a| == 0 {
      assert a + b == b;
    } else {
      var s1 := step(s, a[0]).state;
      assert (a + b)[0] == a[0];
      assert (a + b)[1..] == a[1..] + b;
      RunAppend(step, s1, a[1..], b);
    }
  }

  /** Running two events is taking their steps in order. */
  lemma RunTwo(step: (State, Event) -> Transition, s: State, a: Event, b: Event)
    ensures RunWith(step, s, [a, b]).state == step(step(s, a).state, b).state
    ensures RunWith(step, s, [a, b]).outputs == step(s, a).outputs + step(step(s, a).state, b).outputs
  {
    assert [a, b] == [a] + [b];
    RunAppend(step, s, [a], [b]);
    RunOne(step, s, a);
    RunOne(step, step(s, a).state, b);
  }

  /** Running three events is taking their steps in order. */
  lemma RunThree(step: (State, Event) -> Transition, s: State, a: Event, b: Event, c: Event)
    ensures var t1 := step(s, a);
            var t2 := step(t1.state, b);
            var t3 := step(t2.state, c);
            RunWith(step, s, [a, b, c]) == Transition(t3.state, t1.outputs + t2.outputs + t3.outputs)
  {
    assert [a, b, c] == [a, b] + [c];
    RunAppend(step, s, [a, b], [c]);
    RunTwo(step, s, a, b);
    RunOne(step, step(step(s, a).state, b).state, c);
  }

  /** Running four events is taking their steps in order. */
  lemma RunFour(step: (State, Event) -> Transition, s: State, a: Event, b: Event, c: Event, d: Event)
    ensures var t1 := step(s, a);
            var t2 := step(t1.state, b);
            var t3 := step(t2.state, c);
            var t4 := step(t3.state, d);
            RunWith(step, s, [a, b, c, d]) == Transition(t4.state, t1.outputs + t2.outputs + t3.outputs + t4.outputs)
  {
    assert [a, b, c, d] == [a, b] + [c, d];
    RunAppend(step, s, [a, b], [c, d]);
    RunTwo(step, s, a, b);
    RunTwo(step, step(step(s, a).state, b).state, c, d);
  }

  /** How an unmount ends when the child closes inside the grace period:
      the statuses are "unmounting" then "terminated by user", the only signal
      is SIGINT to the child, the grace timer is cleared, the unmount resolves
      with success, nothing is held and the latch stays set. */
  predicate EndedInGrace(t: Transition, q: nat, g: nat) {
    && Messages(t.outputs) == [Unmounting, TerminatedByUser]
    && (forall o :: o in t.outputs && o.Kill? ==> o == Kill(q, SIGINT))
    && Reply(Unmounted) in t.outputs && ClearTimer(g) in t.outputs
    && t.state.held.None? && t.state.userUnmount
  }

  /** Unmount, then the child closes inside the grace period, then the
      (cleared) grace timer would fire (main.js:158-178, 229-238). */
  lemma UnmountClosesInGrace(s: State, code: ExitCode)
    requires Inv(s) && s.held.Some?
    ensures EndedInGrace(Run(s, [UnmountReq, ProcClose(s.held.value, code), GraceFire(s.next)]), s.held.value, s.next)
  {
    GraceRun(s, code);
    UnmountCloseChain(s, code);
  }

  lemma GraceRun(s: State, code: ExitCode)
    requires s.held.Some?
    ensures var q, g := s.held.value, s.next;
            var t1 := OnUnmount(s);
            var t2 := OnProcClose(t1.state, q, code);
            var t3 := OnGrace(t2.state, g);
            Run(s, [UnmountReq, ProcClose(q, code), GraceFire(g)]) == Transition(t3.state, t1.outputs + t2.outputs + t3.outputs)
  {
    RunThree(Step, s, UnmountReq, ProcClose(s.held.value, code), GraceFire(s.next));
  }

  lemma UnmountCloseChain(s: State, code: ExitCode)
    requires Inv(s) && s.held.Some?
    ensures var q, g := s.held.value, s.next;
            var t1 := OnUnmount(s);
            var t2 := OnProcClose(t1.state, q, code);
            var t3 := OnGrace(t2.state, g);
            EndedInGrace(Transition(t3.state, t1.outputs + t2.outputs + t3.outputs), q, g)
  {
    var q, g := s.held.value, s.next;
    var t1 := OnUnmount(s);
    UnmountWhenHeld(s);
    var t2 := OnProcClose(t1.state, q, code);
    UserClose(s, code);
    GraceEscalates(t2.state, g);
    assert t1.outputs + t2.outputs + OnGrace(t2.state, g).outputs == t1.outputs + t2.outputs;
    assert Messages(t1.outputs) == [Unmounting] by {
      NoMessages(t1.outputs[1..]);
    }
    MessagesAppend(t1.outputs, t2.outputs);
  }

  /** The close that follows an unmount: it reports a user-ended mount,
      resolves the unmount and clears its grace timer, sends no signal, and
      leaves nothing held and the latch set. */
  lemma UserClose(s: State, code: ExitCode)
    requires Inv(s) && s.held.Some?
    ensures var q, g := s.held.value, s.next;
            var t1 := OnUnmount(s);
            var t2 := OnProcClose(t1.state, q, code);
            && t2.state.held.None? && t2.state.userUnmount && g !in t2.state.graces
            && Messages(t2.outputs) == [TerminatedByUser]
            && Reply(Unmounted) in t2.outputs && ClearTimer(g) in t2.outputs
            && (forall o :: o in t2.outputs ==> !o.Kill?)
  {
    var q, g := s.held.value, s.next;
    var t1 := OnUnmount(s);
    UnmountWhenHeld(s);
    CloseReleases(t1.state, q, code);
    CloseReports(t1.state, q, code);
    CloseResolvesWaiters(t1.state, q, code);
    var t2 := OnProcClose(t1.state, q, code);
    assert multiset(t2.outputs)[Reply(Unmounted)] > 0;
  }

  /** How an unmount ends when the grace period runs out first: SIGINT, then
      SIGKILL to the same child, then the close's "terminated by user"
      report; the unmount still resolves with success and nothing is held. */
  predicate Escalated(t: Transition, q: nat) {
    && |t.outputs| >= 6
    && t.outputs[1] == Kill(q, SIGINT)
    && t.outputs[3] == Kill(q, SIGKILL)
    && t.outputs[4] == Status(TerminatedByUser)
    && Reply(Unmounted) in t.outputs
    && t.state.held.None?
  }

  /** Unmount, the grace timer fires with the child still held, then the
      child closes (main.js:158-178, 229-238). */
  lemma UnmountEscalates(s: State, code: ExitCode)
    requires Inv(s) && s.held.Some?
    ensures Escalated(Run(s, [UnmountReq, GraceFire(s.next), ProcClose(s.held.value, code)]), s.held.value)
  {
    EscalationRun(s, code);
    EscalationChain(s, code);
  }

  lemma EscalationRun(s: State, code: ExitCode)
    requires s.held.Some?
    ensures var q, g := s.held.value, s.next;
            var t1 := OnUnmount(s);
            var t2 := OnGrace(t1.state, g);
            var t3 := OnProcClose(t2.state, q, code);
            Run(s, [UnmountReq, GraceFire(g), ProcClose(q, code)]) == Transition(t3.state, t1.outputs + t2.outputs + t3.outputs)
  {
    RunThree(Step, s, UnmountReq, GraceFire(s.next), ProcClose(s.held.value, code));
  }

  lemma EscalationChain(s: State, code: ExitCode)
    requires Inv(s) && s.held.Some?
    ensures var q, g := s.held.value, s.next;
            var t1 := OnUnmount(s);
            var t2 := OnGrace(t1.state, g);
            var t3 := OnProcClose(t2.state, q, code);
            Escalated(Transition(t3.state, t1.outputs + t2.outputs + t3.outputs), q)
  {
    var q, g := s.held.value, s.next;
    var t1 := OnUnmount(s);
    var t2 := OnGrace(t1.state, g);
    GraceKills(s);
    var t3 := OnProcClose(t2.state, q, code);
    CloseReports(t2.state, q, code);
    CloseResolvesWaiters(t2.state, q, code);
    var outs := t1.outputs + t2.outputs + t3.outputs;
    assert outs[3] == Kill(q, SIGKILL) && outs[4] == t3.outputs[0];
    assert multiset(t3.outputs)[Reply(Unmounted)] > 0;
  }

  /** The grace timer of an unmount fires with the child still held: SIGKILL
      follows the SIGINT, and the child is still there, the latch set. */
  lemma GraceKills(s: State)
    requires Inv(s) && s.held.Some?
    ensures var q, g := s.held.value, s.next;
            var t1 := OnUnmount(s);
            var t2 := OnGrace(t1.state, g);
            && t1.outputs == [Status(Unmounting), Kill(q, SIGINT), SetTimer(g, GracePeriodMs)]
            && t2.outputs == [Kill(q, SIGKILL)]
            && q in t2.state.procs && t2.state.userUnmount
  {
    UnmountWhenHeld(s);
    GraceEscalates(OnUnmount(s).state, s.next);
  }

  /** A second mount request while the first one's config helper is still
      running is accepted, since the guard looks only at the held child
      (main.js:182): both helpers are pending, nothing is held. */
  lemma MountDuringConfigAccepted(s: State, p1: Profile, p2: Profile)
    requires Inv(s) && s.held.None?
    ensures var t := Run(s, [MountReq(p1), MountReq(p2)]);
            && SpawnHelper(s.next, ConfigArgs(p1), p1.configPassword) in t.outputs
            && SpawnHelper(s.next + 1, ConfigArgs(p2), p2.configPassword) in t.outputs
            && Messages(t.outputs) == [CreatingConfig(p1.profileName), CreatingConfig(p2.profileName)]
            && t.state == s.(helpers := s.helpers[s.next := p1][s.next + 1 := p2], next := s.next + 2, userUnmount := false)
  {
    var t1 := OnMount(s, p1);
    MountGuard(s, p1);
    MountInv(s, p1);
    var t2 := OnMount(t1.state, p2);
    MountGuard(t1.state, p2);
    RunTwo(Step, s, MountReq(p1), MountReq(p2));
    assert Messages(t1.outputs) == [CreatingConfig(p1.profileName)] by {
      NoMessages(t1.outputs[1..]);
    }
    assert Messages(t2.outputs) == [CreatingConfig(p2.profileName)] by {
      NoMessages(t2.outputs[1..]);
    }
    MessagesAppend(t1.outputs, t2.outputs);
  }

  /** Two pending helpers both succeed, so two mount children run and the later
      one is held; the earlier child then closes, which drops the held reference
      to the later, still running child, and `unmount` answers "Not mounted"
      while a mount is live (main.js:160-163, 195-238). */
  lemma OrphanCloseForgetsLiveMount(s: State, h1: nat, h2: nat)
    requires Inv(s) && s.held.None? && h1 in s.helpers && h2 in s.helpers && h1 != h2
    ensures var t := Run(s, [ConfigClose(h1, Code(0), DirExists), ConfigClose(h2, Code(0), DirExists),
                             ProcClose(s.next, Code(0)), UnmountReq]);
            && s.next + 2 in t.state.procs
            && t.state.held.None?
            && t.outputs[|t.outputs| - 1] == Reply(NotMounted("Not mounted"))
  {
    OrphanRun(s, h1, h2);
    OrphanChain(s, h1, h2);
  }

  lemma OrphanRun(s: State, h1: nat, h2: nat)
    ensures var t1 := OnConfigClose(s, h1, Code(0), DirExists);
            var t2 := OnConfigClose(t1.state, h2, Code(0), DirExists);
            var t3 := OnProcClose(t2.state, s.next, Code(0));
            var t4 := OnUnmount(t3.state);
            Run(s, [ConfigClose(h1, Code(0), DirExists), ConfigClose(h2, Code(0), DirExists), ProcClose(s.next, Code(0)), UnmountReq])
              == Transition(t4.state, t1.outputs + t2.outputs + t3.outputs + t4.outputs)
  {
    RunFour(Step, s, ConfigClose(h1, Code(0), DirExists), ConfigClose(h2, Code(0), DirExists),
            ProcClose(s.next, Code(0)), UnmountReq);
  }

  lemma OrphanChain(s: State, h1: nat, h2: nat)
    requires Inv(s) && s.held.None? && h1 in s.helpers && h2 in s.helpers && h1 != h2
    ensures var t1 := OnConfigClose(s, h1, Code(0), DirExists);
            var t2 := OnConfigClose(t1.state, h2, Code(0), DirExists);
            var t3 := OnProcClose(t2.state, s.next, Code(0));
            var t4 := OnUnmount(t3.state);
            && s.next + 2 in t4.state.procs
            && t4.state.held.None?
            && t4.outputs[|t4.outputs| - 1] == Reply(NotMounted("Not mounted"))
  {
    var t1 := OnConfigClose(s, h1, Code(0), DirExists);
    var t2 := OnConfigClose(t1.state, h2, Code(0), DirExists);
    SecondMountTakesOver(s, h1, h2);
    var t3 := OnProcClose(t2.state, s.next, Code(0));
    CloseReleases(t2.state, s.next, Code(0));
    UnmountWhenIdle(t3.state);
  }

  /** Two helpers closing cleanly one after the other start two mounts; the
      second takes the handle while the first stays alive. */
  lemma SecondMountTakesOver(s: State, h1: nat, h2: nat)
    requires Inv(s) && h1 in s.helpers && h2 in s.helpers && h1 != h2
    ensures var t1 := OnConfigClose(s, h1, Code(0), DirExists);
            var t2 := OnConfigClose(t1.state, h2, Code(0), DirExists);
            && s.next in t2.state.procs && s.next + 2 in t2.state.procs
            && t2.state.held == Some(s.next + 2)
  {
    var t1 := OnConfigClose(s, h1, Code(0), DirExists);
    ConfigCloseStarts(s, h1, Code(0), DirExists);
    assert h2 in t1.state.helpers && t1.state.next == s.next + 2;
  }

  /** A mount whose child exits before its confirmation timer fires leaves
      that timer pending, holding the remote it was started for, and leaves
      nothing held (main.js:229-245). */
  lemma FailedMountLeavesTimer(s: State, p: Profile, code: ExitCode)
    requires Inv(s) && s.held.None?
    ensures var h := s.next;
            var t := Run(s, [MountReq(p), ConfigClose(h, Code(0), DirExists), ProcClose(h + 1, code)]);
            && Inv(t.state) && t.state.held.None?
            && h + 2 in t.state.confirms && t.state.confirms[h + 2] == RemotePath(p)
  {
    FailedMountRun(s, p, code);
    FailedMountChain(s, p, code);
  }

  lemma FailedMountRun(s: State, p: Profile, code: ExitCode)
    ensures var h := s.next;
            var s1 := OnMount(s, p).state;
            var s2 := OnConfigClose(s1, h, Code(0), DirExists).state;
            Run(s, [MountReq(p), ConfigClose(h, Code(0), DirExists), ProcClose(h + 1, code)]).state
              == OnProcClose(s2, h + 1, code).state
  {
    var h := s.next;
    RunThree(Step, s, MountReq(p), ConfigClose(h, Code(0), DirExists), ProcClose(h + 1, code));
  }

  lemma FailedMountChain(s: State, p: Profile, code: ExitCode)
    requires Inv(s) && s.held.None?
    ensures var h := s.next;
            var s1 := OnMount(s, p).state;
            var s2 := OnConfigClose(s1, h, Code(0), DirExists).state;
            var s3 := OnProcClose(s2, h + 1, code).state;
            && Inv(s3) && s3.held.None?
            && h + 2 in s3.confirms && s3.confirms[h + 2] == RemotePath(p)
  {
    var h := s.next;
    var s1 := OnMount(s, p).state;
    MountGuard(s, p);
    MountInv(s, p);
    var s2 := OnConfigClose(s1, h, Code(0), DirExists).state;
    ConfigCloseStarts(s1, h, Code(0), DirExists);
    ConfigCloseInv(s1, h, Code(0), DirExists);
    CloseReleases(s2, h + 1, code);
    ProcCloseInv(s2, h + 1, code);
  }

  /** A confirmation timer announces whatever child is held when it fires:
      a timer left pending by an earlier mount announces the next mount,
      naming the remote of the earlier one (main.js:240-245). */
  lemma StaleConfirmAnnouncesLaterMount(s: State, p: Profile, c: nat)
    requires Inv(s) && s.held.None? && c in s.confirms
    ensures var h := s.next;
            var t := Run(s, [MountReq(p), ConfigClose(h, Code(0), DirExists), ConfirmFire(c)]);
            && |t.outputs| >= 2
            && t.outputs[|t.outputs| - 2] == Status(Mounted(s.confirms[c]))
            && t.outputs[|t.outputs| - 1] == MountSuccessful
            && t.state.held == Some(h + 1)
  {
    StaleConfirmRun(s, p, c);
    StaleConfirmChain(s, p, c);
  }

  lemma StaleConfirmRun(s: State, p: Profile, c: nat)
    ensures var h := s.next;
            var t1 := OnMount(s, p);
            var t2 := OnConfigClose(t1.state, h, Code(0), DirExists);
            var t3 := OnConfirm(t2.state, c);
            Run(s, [MountReq(p), ConfigClose(h, Code(0), DirExists), ConfirmFire(c)])
              == Transition(t3.state, t1.outputs + t2.outputs + t3.outputs)
  {
    var h := s.next;
    RunThree(Step, s, MountReq(p), ConfigClose(h, Code(0), DirExists), ConfirmFire(c));
  }

  lemma StaleConfirmChain(s: State, p: Profile, c: nat)
    requires Inv(s) && s.held.None? && c in s.confirms
    ensures var h := s.next;
            var t1 := OnMount(s, p);
            var t2 := OnConfigClose(t1.state, h, Code(0), DirExists);
            var t3 := OnConfirm(t2.state, c);
            && t3.outputs == [Status(Mounted(s.confirms[c])), MountSuccessful]
            && t3.state.held == Some(h + 1)
  {
    var h := s.next;
    var t1 := OnMount(s, p);
    MountGuard(s, p);
    MountInv(s, p);
    var t2 := OnConfigClose(t1.state, h, Code(0), DirExists);
    ConfigCloseStarts(t1.state, h, Code(0), DirExists);
    assert t2.state.confirms[c] == s.confirms[c];
    ConfirmAnnounces(t2.state, c);
  }

  /** The state after a run is the state after the rest of the run from the
      state after its first step. */
  lemma RunState(s: State, events: seq<Event>)
    requires |events| > 0
    ensures Run(s, events).state == Run(Step(s, events[0]).state, events[1..]).state
  {
  }
}
